=== FILE: README.md ===
# GitHub organization duplicator — a verified model of its decision logic

`github_org_duplicator.py` copies every repository of one GitHub organization into
another. It drives the `gh` CLI and `git`. This project models, in Dafny, the logic
between those calls:

- **Conflict detection.** Repository names are compared case-insensitively across
  the two organizations.
- **Duplicate verification (`compare_repos`).** The branch-name sets must be equal
  and every branch must have the same head commit on both sides.
- **The gate.** Any conflict that is not an identical duplicate stops the run with
  exit status 1, before anything is cloned.
- **Ledger seeding.** Verified duplicates are meant to be appended to the progress
  ledger `completed_repos.txt`. As written, line 312 reads `completed_file` before
  it is assigned, so any verified duplicate ends the run with UnboundLocalError
  (see Findings). The model of a whole run follows the intended seeding;
  `Orchestration.SeedingCrashesOnDuplicate` contrasts it with the script as written.
- **Ledger loading.** The ledger is read as its stripped, non-empty lines.
- **The work list.** It holds the source repositories the ledger does not name,
  stably sorted oldest first by `createdAt`.
- **The migration loop.** Each repository is cloned as a mirror, created in the
  destination and pushed. Clone and push get up to three attempts each; create gets
  one. The temporary clone is then removed. Success appends the name to the ledger;
  each repository increments exactly one of the two counters.

Every external call is an input:

- The hosting API's answers about branches and head commits are a `Hosting` value.
  It holds a `RepoView` per repository: a branch set, or `None` when listing raised,
  and the head SHA of each branch whose lookup succeeds.
- Each command of the migration loop answers according to a `StepScript`: the result
  of each clone attempt, of create, and of each push attempt.
- The loop's effects are recorded as a trace of `Action`s. An action is a step
  (clone, create, push or clean-up) and a repository; `Argv` gives its command line.

Modules, one per file:

| module | file |
|---|---|
| `Common` | `common.dfy` |
| `Text` | `text.dfy` |
| `Inventory` | `inventory.dfy` |
| `Conflicts` | `conflicts.dfy` |
| `Ledger` | `ledger.dfy` |
| `Schedule` | `schedule.dfy` |
| `Migration` | `migration.dfy` |
| `Orchestration` | `orchestration.dfy` |

- `Conflicts.VerifyConflicts`, `Migration.RunWithRetries`,
  `Migration.MigrateRepository`, `Migration.MigrateAll` and `Orchestration.Run`
  are imperative. Each is proved equal to a specification function
  (`Divergent`/`Duplicates`, `Retry`, `RepoRun`, `Batch`, `RunResultOf`), whose
  properties are proved as lemmas.
- Everything else is functions and lemmas.

## Model

| member | source | states |
|---|---|---|
| Text.StripSpec | github_org_duplicator.py:511 | `line.strip()` removes a run of Python white space from each end of the line and leaves none at either end |
| Text.StripPlainName | github_org_duplicator.py:511 | stripping a name without white space gives the name back, so a name written to the ledger loads back unchanged |
| Text.Lower | github_org_duplicator.py:270-271 | lowering keeps the length, turns each ASCII capital into its lower-case letter, and keeps every other character |
| Text.StrLeTotal | github_org_duplicator.py:283 | Python's string order compares any two strings |
| Text.StrLeTransitive | github_org_duplicator.py:283 | Python's string order is transitive |
| Text.StrLeAntisymmetric | github_org_duplicator.py:283 | two strings each no greater than the other are equal |
| Text.SortedNames | github_org_duplicator.py:283 | `sorted` of a set lists each element exactly once, in strictly ascending order |
| Inventory.HasLfsFilter | github_org_duplicator.py:97 | true exactly when `filter=lfs` occurs at some position of the content |
| Inventory.CheckRepoForLfs | github_org_duplicator.py:83-101 | a failed fetch means no LFS; otherwise LFS exactly when the content contains `filter=lfs` |
| Conflicts.NameIndexSpec | github_org_duplicator.py:270-271 | the name dictionary's keys are exactly the lowered names; each key maps to a spelling that lowers to it, namely the last repository's with that lowered name |
| Conflicts.ConflictKeys | github_org_duplicator.py:272 | a lowered name is a conflict exactly when it occurs on both sides |
| Conflicts.CompareHeads | github_org_duplicator.py:158-170 | identical exactly when every branch has a head on both sides and the heads are equal; a source lookup failure names a branch missing at the source, a destination lookup failure a branch present at the source but missing at the destination, a commit difference a branch whose two heads differ |
| Conflicts.CompareRepos | github_org_duplicator.py:136-175 | identical exactly when both branch lists were fetched, the sets are equal, and every branch has the same head on both sides; the source-listing, destination-listing and branch-names reasons are each given exactly in their own case |
| Conflicts.ClassificationCounts | github_org_duplicator.py:283-294 | every conflict is classified exactly once |
| Conflicts.DuplicatesSound | github_org_duplicator.py:287-291 | every verified duplicate is the source spelling of some conflict, and its two copies compare as identical |
| Conflicts.DuplicatesComplete | github_org_duplicator.py:287-291 | every conflict whose copies compare as identical is recorded, under its source spelling, as a verified duplicate |
| Conflicts.DivergentSpec | github_org_duplicator.py:292-298 | every divergent name fails verification; there are none exactly when every conflict verifies |
| Conflicts.DivergentComplete | github_org_duplicator.py:292-301 | every conflict that fails verification is listed, under its source spelling, among the divergent names the gate prints |
| Conflicts.SingleConflict | github_org_duplicator.py:283-294 | a lone conflict is a verified duplicate, under its source spelling, when it compares as identical, and divergent otherwise |
| Conflicts.DivergentAnyOrder | github_org_duplicator.py:283-298 | whatever order the conflicts are visited in, some diverge exactly when one of them fails verification |
| Conflicts.VerifyConflicts | github_org_duplicator.py:280-294 | the loop builds exactly the divergent and duplicate lists, and their lengths add up to the number of conflicts |
| Ledger.Load | github_org_duplicator.py:506-509 | a missing ledger loads as the empty set |
| Ledger.LoadLinesSpec | github_org_duplicator.py:510-511 | a name is loaded exactly when it is non-empty and some line strips to it |
| Ledger.LoadAppend | github_org_duplicator.py:506-511 | appending a line adds its stripped form, if non-empty, to what loads |
| Ledger.LoadAppendPlain | github_org_duplicator.py:506-511 | appending a plain name adds exactly that name to what loads |
| Ledger.LoadExtend | github_org_duplicator.py:470-472 | appending plain names one per line adds exactly those names to what loads |
| Ledger.SeedSpec | github_org_duplicator.py:311-314 | seeding keeps the old lines as a prefix; every added line is a duplicate that was not loaded before; nothing loaded is lost; no duplicates means no change |
| Ledger.SeedCovers | github_org_duplicator.py:311-314 | after seeding, every plain verified duplicate is in the loaded ledger |
| Ledger.SeedKnown | github_org_duplicator.py:312 | duplicates the ledger already names are not appended again |
| Ledger.SeedIdempotent | github_org_duplicator.py:311-314 | seeding twice with the same duplicates leaves the ledger as seeding once did |
| Ledger.SeedAppendsOnce | github_org_duplicator.py:311-314 | seeding never writes the same plain name twice |
| Ledger.SeedThenExtend | github_org_duplicator.py:311-314 | seeding followed by the migration's appends keeps the ledger as found at the head of the file |
| Ledger.SeedAsWritten | github_org_duplicator.py:307-314 | as written, the seeding succeeds only when there are no verified duplicates, and otherwise raises UnboundLocalError for `completed_file` |
| Schedule.RemainingSpec | github_org_duplicator.py:369 | no remaining repository's name is in the ledger; each other source repository is kept as often as it occurs |
| Schedule.RemainingConcat | github_org_duplicator.py:369 | the filter keeps source order: filtering a concatenation filters each part and keeps them in place |
| Schedule.RemainingSingle | github_org_duplicator.py:369 | a single repository is kept exactly when the ledger does not name it (with RemainingConcat this fixes the filtered list completely) |
| Schedule.InsertSorted | github_org_duplicator.py:392 | inserting into a list sorted by `createdAt` keeps it sorted |
| Schedule.InsertStable | github_org_duplicator.py:392 | insertion puts the new repository at the front of its `createdAt` group and leaves the other groups as they were |
| Schedule.SortByCreationSpec | github_org_duplicator.py:392 | the sort is a permutation, is ascending in `createdAt`, and keeps input order among equal `createdAt` values (stable) |
| Schedule.WorkList | github_org_duplicator.py:368-392 | the work list holds no ledger name and keeps every other source repository as often as it occurs, ascending and stable in `createdAt` |
| Schedule.WorkListMembers | github_org_duplicator.py:368-369 | every repository of the work list comes from the source inventory and is not named by the ledger |
| Migration.RetryFrom | github_org_duplicator.py:420-432 | the retry loop makes at most three attempts and stops at the first success; every attempt before the last failed; giving up means the third attempt failed, and its error is the one raised |
| Migration.RetrySpec | github_org_duplicator.py:420-463 | a retried step is attempted one to three times; it succeeds exactly when one of its three attempts would succeed, and gives up only after three failures |
| Migration.RunWithRetries | github_org_duplicator.py:420-432 | the loop issues the command once per attempt, and its result is the one the retry specification gives |
| Migration.JoinPath | github_org_duplicator.py:410 | the temporary path ends with the repository name |
| Migration.Sanitize | github_org_duplicator.py:441 | the sanitized description has the same length, no double quote, and differs only where a double quote became a single quote |
| Migration.CreateArgv | github_org_duplicator.py:436-442 | the visibility flag is `--private` exactly when the repository is private; a description flag is added only for a non-empty description, with the sanitized text |
| Migration.ArgvPaths | github_org_duplicator.py:410-467 | clone writes, push reads and clean-up removes the same path, which ends with the repository name; the clone URL names the source organization and the push URL the destination |
| Migration.RepoRunSteps | github_org_duplicator.py:413-490 | per repository: clone occurs once per attempt; create occurs once after a successful clone; push occurs once per attempt after a successful create; clean-up occurs once |
| Migration.RepoRunActions | github_org_duplicator.py:419-468 | clone 1 to 3 times; create at most once, exactly when the clone succeeded; push at most 3 times, only after a successful create; clean-up exactly once |
| Migration.RepoRunOutcome | github_org_duplicator.py:413-490 | a repository is migrated exactly when clone and push each succeed within three attempts and create succeeds; it fails at create exactly when the clone succeeded and create failed; a failure names the failed step and that step's last error |
| Migration.RepoRunShape | github_org_duplicator.py:400-490 | every action of an iteration concerns that iteration's repository, and the clean-up (after the push, or in the exception handler) comes last |
| Migration.RepoRunOrder | github_org_duplicator.py:420-468 | the actions for a repository come in the order of the loop body: every clone before the create, the create before every push, the clean-up last |
| Migration.MigrateRepository | github_org_duplicator.py:400-490 | one iteration of the loop, with its retry loops, yields the outcome and actions that RepoRun specifies |
| Migration.Tally | github_org_duplicator.py:470-489 | each repository raises exactly one counter, so successful + failed equals the number of repositories; one ledger line per success |
| Migration.TallyCounts | github_org_duplicator.py:470-489 | `successful` is the number of migrated outcomes and `failed` the number of the others |
| Migration.TallyOutcomes | github_org_duplicator.py:400-490 | the i-th recorded outcome is the i-th repository's |
| Migration.TallyCompleted | github_org_duplicator.py:470-478 | a name is appended to the ledger exactly when a repository of that name succeeded |
| Migration.TallyTrace | github_org_duplicator.py:400-490 | the loop's trace is the repositories' traces joined in work-list order |
| Migration.JoinedMembers | github_org_duplicator.py:400-490 | an action is in a joined trace exactly when it is in one of the joined traces |
| Migration.TallyActions | github_org_duplicator.py:400-490 | an action is in the loop's trace exactly when it is in the trace of one of its repositories |
| Migration.BatchSpec | github_org_duplicator.py:395-490 | over the work list: the counters add up to its length and `successful` is the number of migrated outcomes; the i-th outcome is what RepoRun gives for the i-th repository; a name is appended exactly when a repository of that name was migrated; every action concerns a repository of the work list |
| Migration.BatchTrace | github_org_duplicator.py:395-490 | the loop's trace is the per-repository traces of RepoRun joined in work-list order, so every action of every iteration is in it |
| Migration.MigrateAll | github_org_duplicator.py:395-490 | the loop's counters, actions and outcomes are those of Batch; the ledger is the old ledger followed by the migrated names, and is untouched (a missing file stays missing) when none migrated |
| Orchestration.RunExitStatus | github_org_duplicator.py:298-305 | with the intended seeding, the run exits with status 1 exactly when some conflicting name, looked up under its source spelling, is not an identical duplicate; as written, a verified duplicate also ends the run with an error status (see Findings and Orchestration.SeedingCrashesOnDuplicate) |
| Orchestration.ConflictsIndexed | github_org_duplicator.py:283-284 | every conflict has a source spelling, so the lookup at line 284 cannot fail |
| Orchestration.GateSpec | github_org_duplicator.py:283-305 | the gate fires exactly when some conflict, looked up under its source spelling, is not an identical duplicate |
| Orchestration.Run | github_org_duplicator.py:269-490 | the run's result is RunResultOf: the gate's divergent names, or the migration of the pending list on top of the ledger seeded as intended (the as-written seeding crashes, see Orchestration.SeedingCrashesOnDuplicate and Findings) |
| Orchestration.RunAborts | github_org_duplicator.py:296-305 | a run stopped at the gate reports a non-empty list of names whose copies differ; a run that goes on found every conflict an identical copy |
| Orchestration.RunCounts | github_org_duplicator.py:392-497 | past the gate, total is the work list's length, successful + failed = total, successful is the number of migrated outcomes, and the outcomes follow the work list |
| Orchestration.RunLedger | github_org_duplicator.py:307-472 | past the gate, the ledger as found stays at the head; after it come the seeded duplicates and then the names migrated |
| Orchestration.RunSkipsLedger | github_org_duplicator.py:368-400 | no action of a run touches a repository outside the source inventory or named by the ledger, as found or as seeded |
| Orchestration.RunVisitsAll | github_org_duplicator.py:395-490 | past the gate, every pending repository is cloned at least once and its temporary clone is removed |
| Orchestration.SeededCoversDuplicates | github_org_duplicator.py:307-314 | after seeding, the ledger names every plain verified duplicate |
| Orchestration.DuplicatesSkipped | github_org_duplicator.py:307-369 | no repository of the work list has the name of a plain verified duplicate |
| Orchestration.ResumeSkipsMigrated | github_org_duplicator.py:368-369 | a later run that passes the gate has a work list that excludes every name the earlier run appended and every name already in the ledger |
| Orchestration.OneIdenticalConflict | github_org_duplicator.py:283-298 | a run whose single conflict compares as identical has that conflict as its one duplicate and passes the gate |
| Orchestration.SeedFreshLedger | github_org_duplicator.py:311-314 | seeding a missing ledger with one plain name creates a ledger that loads as just that name |
| Orchestration.SeedingCrashesOnDuplicate | github_org_duplicator.py:312-363 | source `Tools` and destination `tools` are identical duplicates. As written the run raises UnboundLocalError; the intended seeding records `Tools` and leaves an empty work list |
| Orchestration.OneDivergentConflict | github_org_duplicator.py:283-305 | a run whose single conflict fails verification stops at the gate, naming that conflict's source spelling |
| Orchestration.ResumeAfterFailedPush | github_org_duplicator.py:150-154 | a re-run after a push that failed for `B` finds the empty destination copy, whose branch set holds only the empty name; the names differ and the run stops at the gate, listing `B` |

## Left out

- Running commands (`run_command`, `subprocess`): every `gh` and `git` call is replaced by its answer, given as input (`Hosting`, `StepScript`).
- The prerequisite checks: `check_gh_installed`, `check_gh_authenticated`, `setup_git_credentials` and `check_org_access`, with their `sys.exit` paths. They are I/O.
- Fetching the inventories (`get_repos_with_details`): the JSON parsing of `gh repo list` output and its 1000-repository limit are not modelled. The inventories are inputs.
- Branch-listing details: the text parsing of `gh api` output and API pagination are left out. A `RepoView` holds the branch set the script would see; for a repository without branches that is the set holding one empty string.
- Inventory.CheckRepoForLfs: fetching and base64-decoding `.gitattributes` is left out. Only the `filter=lfs` substring test on the decoded text is modelled. The LFS flag only selects a warning to print.
- Text.Lower: models `str.lower` on ASCII letters only. Python's full Unicode lower-casing is not modelled.
- Set iteration order: Python visits a branch set in an unspecified order. CompareRepos visits it sorted. The identical-or-not answer does not depend on the order, but the reason reported for a difference might.
- Migration.RepoRun: the clean-up runs only when the temporary path exists. The model records a clean-up action on every path. `shutil.rmtree` errors are ignored by the script and not modelled.
- Schedule.SortByCreation: the in-place `list.sort` at line 392 is a library call. It is modelled as a function computing the sorted list, not as an in-place algorithm.
- The ledger as a file: it is modelled as its sequence of lines. Line terminators other than `\n` are not modelled, nor a last line with no terminator that a later append would extend, nor a name containing a line break. Failures to open or write the file are not modelled.
- Ledger.SeedIdempotent, Ledger.SeedCovers, Orchestration.DuplicatesSkipped and Orchestration.ResumeSkipsMigrated assume names without white space (`IsPlainName`), which repository names satisfy. A name with surrounding white space would be stripped on load and not match.
- Logging: `log_message`, the success and error logs, timestamps, elapsed times, `time.sleep(5)` between retries, and all console output (including `display_repo_table` and `format_size`, which uses floating-point formatting).
- Interactive input: the organization names, the temporary directory (with `expanduser`), its creation and the `isdir` check, the ENTER pause, and the `YES` confirmation with its `sys.exit(0)`. The model starts from a run that was confirmed.
- The `KeyboardInterrupt` handler: interruption is not modelled. The resumption it invites is modelled only through the ledger, for a later run that passes the gate (`Orchestration.ResumeSkipsMigrated`).
- Successive runs: a run's effects on the destination are not fed back into the next run's `Hosting`. A re-run checks conflicts (lines 270-305) before it reads the work list (line 368), so two consequences follow. A repository created by an earlier run whose push failed or was interrupted is an empty copy that fails verification, so the re-run exits with status 1 before any clone (`Orchestration.ResumeAfterFailedPush`). As written, every repository an earlier run fully migrated verifies as an identical duplicate, so the re-run raises UnboundLocalError at line 312 (see Findings).
- The commented-out first draft (lines 524-801) and the other commented blocks are not live code.

## Findings

| source | as written | input that shows it | evidently intended | confidence | as-written member | corrected member |
|---|---|---|---|---|---|---|
| github_org_duplicator.py:312 | The seeding loop reads the local `completed_file`, which `main` assigns only at line 363, so the first verified duplicate raises UnboundLocalError and the run ends with a traceback | source organization has `Tools`, destination has `tools`, both with branch `main` at the same commit (Orchestration.CrashScenario) | append each verified duplicate to `completed_repos.txt` unless already listed, then continue to the migration, which skips it | high (not executed) | Ledger.SeedAsWritten | Ledger.SeedSpec |

=== FILE: common.dfy ===
/** Stock optional and error-carrying values shared by the other modules. */
module Common {

  datatype Option<T> = None | Some(value: T)

  datatype Result<T, E> = Ok(value: T) | Err(error: E)
}

=== FILE: conflicts.dfy ===
/**
 * Conflict detection and duplicate verification: which repository names exist in
 * both organizations (compared case-insensitively), and whether the destination's
 * copy of each is already an identical duplicate of the source's.
 */
module Conflicts {
  import opened Common
  import opened Text
  import opened Inventory

  /**
   * The dictionary of lines 270-271, from lowered name to original spelling: a later
   * repository overwrites an earlier one with the same lowered name.
   */
  function NameIndex(repos: seq<RepoRecord>): (idx: map<string, string>)
    decreases |repos|
  {
    if repos == [] then map[]
    else
      var last := repos[|repos| - 1];
      NameIndex(repos[..|repos| - 1])[Lower(last.name) := last.name]
  }

  predicate HasLowered(repos: seq<RepoRecord>, k: string) {
    exists i :: 0 <= i < |repos| && Lower(repos[i].name) == k
  }

  /**
   * The keys of the index are exactly the lowered names, and each key maps to the
   * spelling of the last repository with that lowered name.
   */
  lemma {:induction false} NameIndexSpec(repos: seq<RepoRecord>)
    ensures forall k :: k in NameIndex(repos) <==> HasLowered(repos, k)
    ensures forall k :: k in NameIndex(repos) ==> Lower(NameIndex(repos)[k]) == k
    ensures forall k :: k in NameIndex(repos) ==>
      exists i :: 0 <= i < |repos| && LastWithLowered(repos, k, i) && NameIndex(repos)[k] == repos[i].name
    decreases |repos|
  {
    if repos != [] {
      var init := repos[..|repos| - 1];
      var last := repos[|repos| - 1];
      NameIndexSpec(init);
      var before := NameIndex(init);
      var idx := NameIndex(repos);
      assert LastWithLowered(repos, Lower(last.name), |repos| - 1);
      forall k | k in idx
        ensures HasLowered(repos, k) && Lower(idx[k]) == k
        ensures exists i :: 0 <= i < |repos| && LastWithLowered(repos, k, i) && idx[k] == repos[i].name
      {
        if k != Lower(last.name) {
          var i :| 0 <= i < |init| && LastWithLowered(init, k, i) && before[k] == init[i].name;
          assert LastWithLowered(repos, k, i);
        }
      }
      forall k | HasLowered(repos, k) ensures k in idx {
        var i :| 0 <= i < |repos| && Lower(repos[i].name) == k;
        if i < |init| { assert Lower(init[i].name) == k; }
      }
    }
  }

  /** A single repository is indexed under its lowered name. */
  lemma SingletonIndex(r: RepoRecord)
    ensures NameIndex([r]) == map[Lower(r.name) := r.name]
  {
    assert [r][..0] == [];
  }

  /** repos[i] is the last repository whose lowered name is k. */
  predicate LastWithLowered(repos: seq<RepoRecord>, k: string, i: nat)
    requires i < |repos|
  {
    Lower(repos[i].name) == k && forall j :: i < j < |repos| ==> Lower(repos[j].name) != k
  }

  /** The conflicts of line 272: the lowered names present on both sides. */
  function ConflictKeys(source: seq<RepoRecord>, dest: seq<RepoRecord>): (conflicts: set<string>)
    ensures forall k :: k in conflicts <==> HasLowered(source, k) && HasLowered(dest, k)
  {
    NameIndexSpec(source);
    NameIndexSpec(dest);
    NameIndex(source).Keys * NameIndex(dest).Keys
  }

  /** Which organization an API call went to. */
  datatype Side = Source | Destination

  /** Why compare_repos answered "not identical". */
  datatype Reason =
    | ListingFailed(side: Side)                    // the branch-list call raised
    | BranchNamesDiffer                            // "Branch names don't match"
    | HeadLookupFailed(side: Side, branch: string) // a head-commit call raised
    | CommitsDiffer(branch: string)                // "Branch '<b>' has different commits"

  datatype Verdict = Identical | Different(reason: Reason)

  /**
   * What the hosting API answers about one repository: the branch-name set, or None
   * when listing raises; the head commit SHA of each branch whose lookup succeeds.
   */
  datatype RepoView = RepoView(branches: Option<set<string>>, heads: map<string, string>)

  /** The API answers, per organization, keyed by the repository name queried. */
  datatype Hosting = Hosting(source: map<string, RepoView>, dest: map<string, RepoView>)

  /** A repository the API does not know makes every call about it raise. */
  function ViewOf(api: map<string, RepoView>, name: string): RepoView {
    if name in api then api[name] else RepoView(None, map[])
  }

  predicate SameHead(b: string, src: map<string, string>, dst: map<string, string>) {
    b in src && b in dst && src[b] == dst[b]
  }

  /**
   * The loop over `source_branch_list` at lines 158-170, visiting branches in `order`:
   * source head, then destination head, then compare; the first failure decides.
   */
  function CompareHeads(order: seq<string>, src: map<string, string>, dst: map<string, string>): (v: Verdict)
    ensures v.Identical? <==> forall i :: 0 <= i < |order| ==> SameHead(order[i], src, dst)
    ensures v.Different? ==> match v.reason
      case HeadLookupFailed(side, b) =>
        b in order && (if side == Source then b !in src else b in src && b !in dst)
      case CommitsDiffer(b) => b in order && b in src && b in dst && src[b] != dst[b]
      case _ => false
    decreases |order|
  {
    if order == [] then Identical
    else
      var b := order[0];
      if b !in src then Different(HeadLookupFailed(Source, b))
      else if b !in dst then Different(HeadLookupFailed(Destination, b))
      else if src[b] != dst[b] then Different(CommitsDiffer(b))
      else
        var rest := CompareHeads(order[1..], src, dst);
        assert forall i :: 1 <= i < |order| ==> order[i] == order[1..][i - 1];
        rest
  }

  /**
   * compare_repos: identical exactly when both branch lists are fetched, the two
   * name sets are equal, and every branch has the same head commit on both sides.
   * Python iterates the set in an unspecified order; this model visits it sorted,
   * and CompareHeads shows the identical/different answer does not depend on order.
   */
  function CompareRepos(src: RepoView, dst: RepoView): (v: Verdict)
    ensures v.Identical? <==>
      src.branches.Some? && dst.branches == src.branches &&
      forall b :: b in src.branches.value ==> SameHead(b, src.heads, dst.heads)
    ensures v == Different(ListingFailed(Source)) <==> src.branches.None?
    ensures v == Different(ListingFailed(Destination)) <==> src.branches.Some? && dst.branches.None?
    ensures v == Different(BranchNamesDiffer) <==>
      src.branches.Some? && dst.branches.Some? && src.branches != dst.branches
  {
    match (src.branches, dst.branches)
    case (None, _) => Different(ListingFailed(Source))
    case (Some(_), None) => Different(ListingFailed(Destination))
    case (Some(a), Some(b)) =>
      if a != b then Different(BranchNamesDiffer)
      else
        var order := SortedNames(a);
        var v := CompareHeads(order, src.heads, dst.heads);
        assert forall x :: x in a ==> exists i :: 0 <= i < |order| && order[i] == x;
        v
  }

  /** The call at line 287: both organizations are queried under the source's spelling. */
  function Verify(api: Hosting, name: string): Verdict {
    CompareRepos(ViewOf(api.source, name), ViewOf(api.dest, name))
  }

  /** The source spellings of `order`'s conflicts whose verification succeeds, in order. */
  function Duplicates(order: seq<string>, index: map<string, string>, api: Hosting): (dups: seq<string>)
    requires forall i :: 0 <= i < |order| ==> order[i] in index
    decreases |order|
  {
    if order == [] then []
    else
      var k := order[|order| - 1];
      Duplicates(order[..|order| - 1], index, api) + (if Verify(api, index[k]).Identical? then [index[k]] else [])
  }

  /** The source spellings of `order`'s conflicts whose verification fails, in order. */
  function Divergent(order: seq<string>, index: map<string, string>, api: Hosting): (divs: seq<string>)
    requires forall i :: 0 <= i < |order| ==> order[i] in index
    decreases |order|
  {
    if order == [] then []
    else
      var k := order[|order| - 1];
      Divergent(order[..|order| - 1], index, api) + (if Verify(api, index[k]).Identical? then [] else [index[k]])
  }

  /** A single conflict is a duplicate when it verifies as identical and diverges otherwise. */
  lemma SingleConflict(k: string, index: map<string, string>, api: Hosting)
    requires k in index
    ensures Duplicates([k], index, api) == if Verify(api, index[k]).Identical? then [index[k]] else []
    ensures Divergent([k], index, api) == if Verify(api, index[k]).Identical? then [] else [index[k]]
  {
    assert [k][..0] == [];
  }

  /** Every conflict is classified exactly once. */
  lemma {:induction false} ClassificationCounts(order: seq<string>, index: map<string, string>, api: Hosting)
    requires forall i :: 0 <= i < |order| ==> order[i] in index
    ensures |Duplicates(order, index, api)| + |Divergent(order, index, api)| == |order|
    decreases |order|
  {
    if order != [] {
      ClassificationCounts(order[..|order| - 1], index, api);
    }
  }

  /** Every duplicate is the source spelling of a conflict that verifies as identical. */
  lemma {:induction false} DuplicatesSound(order: seq<string>, index: map<string, string>, api: Hosting)
    requires forall i :: 0 <= i < |order| ==> order[i] in index
    ensures forall n :: n in Duplicates(order, index, api) ==>
      Verify(api, n).Identical? && exists i :: 0 <= i < |order| && index[order[i]] == n
    decreases |order|
  {
    if order != [] {
      var init := order[..|order| - 1];
      DuplicatesSound(init, index, api);
      forall n | n in Duplicates(order, index, api)
        ensures exists i :: 0 <= i < |order| && index[order[i]] == n
      {
        if n in Duplicates(init, index, api) {
          var i :| 0 <= i < |init| && index[init[i]] == n;
          assert order[i] == init[i];
        } else {
          assert index[order[|order| - 1]] == n;
        }
      }
    }
  }

  /** Every conflict that verifies as identical has its source spelling among the duplicates. */
  lemma {:induction false} DuplicatesComplete(order: seq<string>, index: map<string, string>, api: Hosting)
    requires forall i :: 0 <= i < |order| ==> order[i] in index
    ensures forall i :: 0 <= i < |order| && Verify(api, index[order[i]]).Identical? ==>
      index[order[i]] in Duplicates(order, index, api)
    decreases |order|
  {
    if order != [] {
      var init := order[..|order| - 1];
      DuplicatesComplete(init, index, api);
      var prev := Duplicates(init, index, api);
      forall i | 0 <= i < |order| && Verify(api, index[order[i]]).Identical?
        ensures index[order[i]] in Duplicates(order, index, api)
      {
        if i < |init| {
          assert order[i] == init[i];
          assert index[order[i]] in prev;
        }
      }
    }
  }

  /**
   * The divergent names all fail verification, and there are none exactly when
   * every conflict verifies as identical: the condition of the gate at line 298.
   */
  lemma {:induction false} DivergentSpec(order: seq<string>, index: map<string, string>, api: Hosting)
    requires forall i :: 0 <= i < |order| ==> order[i] in index
    ensures forall n :: n in Divergent(order, index, api) ==> Verify(api, n).Different?
    ensures Divergent(order, index, api) == [] <==>
      forall i :: 0 <= i < |order| ==> Verify(api, index[order[i]]).Identical?
    decreases |order|
  {
    if order != [] {
      var init := order[..|order| - 1];
      DivergentSpec(init, index, api);
      assert forall i :: 0 <= i < |init| ==> init[i] == order[i];
    }
  }

  /** Every conflict that fails verification has its source spelling among the divergent names. */
  lemma {:induction false} DivergentComplete(order: seq<string>, index: map<string, string>, api: Hosting)
    requires forall i :: 0 <= i < |order| ==> order[i] in index
    ensures forall i :: 0 <= i < |order| && Verify(api, index[order[i]]).Different? ==>
      index[order[i]] in Divergent(order, index, api)
    decreases |order|
  {
    if order != [] {
      var init := order[..|order| - 1];
      DivergentComplete(init, index, api);
      var prev := Divergent(init, index, api);
      forall i | 0 <= i < |order| && Verify(api, index[order[i]]).Different?
        ensures index[order[i]] in Divergent(order, index, api)
      {
        if i < |init| {
          assert order[i] == init[i];
          assert index[order[i]] in prev;
        }
      }
    }
  }

  /** Whatever order the conflicts are visited in, some diverge exactly when one of them fails verification. */
  lemma DivergentAnyOrder(order: seq<string>, keys: set<string>, index: map<string, string>, api: Hosting)
    requires forall i :: 0 <= i < |order| ==> order[i] in index
    requires forall k :: k in keys <==> k in order
    ensures Divergent(order, index, api) != [] <==>
      exists k :: k in keys && k in index && Verify(api, index[k]).Different?
  {
    DivergentSpec(order, index, api);
    if Divergent(order, index, api) != [] {
      var i :| 0 <= i < |order| && Verify(api, index[order[i]]).Different?;
      assert order[i] in keys;
    } else {
      forall k | k in keys && k in index ensures Verify(api, index[k]).Identical? {
        var i :| 0 <= i < |order| && order[i] == k;
      }
    }
  }

  /**
   * The loop at lines 283-294: each conflicting name, in the given order, is
   * verified under its source spelling and appended to exactly one of the two lists.
   */
  method VerifyConflicts(order: seq<string>, index: map<string, string>, api: Hosting)
    returns (actual: seq<string>, verified: seq<string>)
    requires forall i :: 0 <= i < |order| ==> order[i] in index
    ensures actual == Divergent(order, index, api) && verified == Duplicates(order, index, api)
    ensures |actual| + |verified| == |order|
  {
    actual, verified := [], [];
    for i := 0 to |order|
      invariant actual == Divergent(order[..i], index, api)
      invariant verified == Duplicates(order[..i], index, api)
      invariant |actual| + |verified| == i
    {
      assert order[..i + 1][..i] == order[..i];
      var name := index[order[i]];
      var verdict := Verify(api, name);
      if verdict.Identical? {
        verified := verified + [name];
      } else {
        actual := actual + [name];
      }
    }
    assert order[..|order|] == order;
  }
}

=== FILE: inventory.dfy ===
/**
 * What the inventory step knows about one repository: an entry of
 * `gh repo list --json name,createdAt,isPrivate,description,diskUsage`, plus the
 * Git LFS flag found by looking for an LFS filter in `.gitattributes`.
 */
module Inventory {
  import opened Common

  /** createdAt is the ISO-8601 text the hosting API returns; it is compared as text. */
  datatype RepoRecord = RepoRecord(
    name: string,
    createdAt: string,
    isPrivate: bool,
    description: Option<string>,
    diskUsage: nat,
    usesLfs: bool)

  const LfsFilter: string := "filter=lfs"

  predicate OccursAt(pattern: string, content: string, i: nat) {
    i + |pattern| <= |content| && content[i..i + |pattern|] == pattern
  }

  /** `'filter=lfs' in content`: the directive occurs somewhere in the decoded `.gitattributes`. */
  function HasLfsFilter(content: string): (r: bool)
    ensures r <==> exists i: nat :: OccursAt(LfsFilter, content, i)
    decreases |content|
  {
    if |content| < |LfsFilter| then
      assert forall i: nat :: !OccursAt(LfsFilter, content, i);
      false
    else if content[..|LfsFilter|] == LfsFilter then
      assert OccursAt(LfsFilter, content, 0);
      true
    else
      var rest := HasLfsFilter(content[1..]);
      assert forall i: nat :: OccursAt(LfsFilter, content[1..], i) <==> OccursAt(LfsFilter, content, i + 1);
      assert !OccursAt(LfsFilter, content, 0);
      assert forall i: nat :: OccursAt(LfsFilter, content, i) ==> i > 0;
      assert forall i: nat :: i > 0 && OccursAt(LfsFilter, content, i) ==> OccursAt(LfsFilter, content[1..], i - 1);
      rest
  }

  /**
   * check_repo_for_lfs: `fetched` is the decoded `.gitattributes` when the API call
   * succeeded, None when it failed; a failure reads as "no LFS".
   */
  function CheckRepoForLfs(fetched: Option<string>): (usesLfs: bool)
    ensures usesLfs ==> fetched.Some?
    ensures fetched.Some? ==> (usesLfs <==> exists i: nat :: OccursAt(LfsFilter, fetched.value, i))
  {
    match fetched
    case None => false
    case Some(content) => HasLfsFilter(content)
  }
}

=== FILE: ledger.dfy ===
/**
 * The progress ledger `completed_repos.txt`: one repository name per line, only
 * ever appended to. Loading it gives the set of stripped, non-empty lines.
 */
module Ledger {
  import opened Common
  import opened Text

  /** The ledger file: missing, or present with these lines (line terminators removed). */
  type LedgerFile = Option<seq<string>>

  function Lines(f: LedgerFile): seq<string> {
    match f
    case None => []
    case Some(lines) => lines
  }

  /** Appending the name and a newline: the file exists afterwards and has one more line. */
  function Append(f: LedgerFile, name: string): (g: LedgerFile)
    ensures g.Some? && Lines(g) == Lines(f) + [name]
  {
    Some(Lines(f) + [name])
  }

  /**
   * The ledger after appending each of `names` in turn: unchanged when there are
   * none, otherwise existing and ending with them.
   */
  function Extend(f: LedgerFile, names: seq<string>): (g: LedgerFile)
    ensures Lines(g) == Lines(f) + names
    ensures names == [] ==> g == f
  {
    if names == [] then f else Some(Lines(f) + names)
  }

  /** Extending a ledger keeps what it held, in place. */
  lemma ExtendKeeps(f: LedgerFile, names: seq<string>)
    ensures |Lines(f)| <= |Lines(Extend(f, names))|
    ensures Lines(Extend(f, names))[..|Lines(f)|] == Lines(f)
  {
    assert (Lines(f) + names)[..|Lines(f)|] == Lines(f);
  }

  /** Appending one more name extends the ledger by that name. */
  lemma ExtendAppend(f: LedgerFile, names: seq<string>, name: string)
    ensures Append(Extend(f, names), name) == Extend(f, names + [name])
  {
    assert Lines(f) + (names + [name]) == Lines(f) + names + [name];
  }

  /** The stripped, non-empty lines of `lines`, as a set. */
  function LoadLines(lines: seq<string>): set<string>
    decreases |lines|
  {
    if lines == [] then {}
    else
      var last := Strip(lines[|lines| - 1]);
      LoadLines(lines[..|lines| - 1]) + (if last == [] then {} else {last})
  }

  /**
   * load_completed_repos: the empty set when the file is missing, otherwise the set of
   * its lines with surrounding white space stripped, empty results dropped.
   */
  function Load(f: LedgerFile): (names: set<string>)
    ensures f.None? ==> names == {}
  {
    LoadLines(Lines(f))
  }

  /** A name is loaded exactly when it is non-empty and some line strips to it. */
  lemma {:induction false} LoadLinesSpec(lines: seq<string>)
    ensures forall n :: n in LoadLines(lines) <==> n != [] && exists i :: 0 <= i < |lines| && Strip(lines[i]) == n
    decreases |lines|
  {
    if lines != [] {
      var init := lines[..|lines| - 1];
      LoadLinesSpec(init);
      assert forall i :: 0 <= i < |init| ==> init[i] == lines[i];
      forall n | n != [] && exists i :: 0 <= i < |lines| && Strip(lines[i]) == n
        ensures n in LoadLines(lines)
      {
        var i :| 0 <= i < |lines| && Strip(lines[i]) == n;
        var last := Strip(lines[|lines| - 1]);
        assert LoadLines(lines) == LoadLines(init) + (if last == [] then {} else {last});
        if i < |init| {
          assert Strip(init[i]) == n;
          assert n in LoadLines(init);
        } else {
          assert last == n;
        }
      }
    }
  }

  /** Appending a line adds its stripped form, if any, to what loading yields. */
  lemma LoadAppend(f: LedgerFile, name: string)
    ensures Load(Append(f, name)) == Load(f) + (if Strip(name) == [] then {} else {Strip(name)})
  {
    assert (Lines(f) + [name])[..|Lines(f)|] == Lines(f);
  }

  /** A plain name appended to the ledger loads back as itself. */
  lemma LoadAppendPlain(f: LedgerFile, name: string)
    requires IsPlainName(name)
    ensures Load(Append(f, name)) == Load(f) + {name}
  {
    LoadAppend(f, name);
    StripPlainName(name);
  }

  /** Appending plain names line by line adds exactly those names to what loading yields. */
  lemma {:induction false} LoadExtend(f: LedgerFile, names: seq<string>)
    requires forall i :: 0 <= i < |names| ==> IsPlainName(names[i])
    ensures forall n :: n in Load(Extend(f, names)) <==> n in Load(f) || n in names
    decreases |names|
  {
    if names != [] {
      var init := names[..|names| - 1];
      var last := names[|names| - 1];
      LoadExtend(f, init);
      ExtendAppend(f, init, last);
      assert init + [last] == names;
      LoadAppendPlain(Extend(f, init), last);
      assert forall n :: n in names <==> n in init || n == last;
    }
  }

  /**
   * The guarded append of lines 311-314 as intended: each verified duplicate, in
   * order, is appended unless loading the ledger already yields it.
   */
  function Seed(f: LedgerFile, dups: seq<string>): LedgerFile
    decreases |dups|
  {
    if dups == [] then f
    else
      var g := Seed(f, dups[..|dups| - 1]);
      var d := dups[|dups| - 1];
      if d in Load(g) then g else Append(g, d)
  }

  /**
   * Seeding only appends: the old lines stay as a prefix, every line added is one
   * of the duplicates that the ledger did not yield before, nothing loaded is lost,
   * and with no duplicates nothing changes.
   */
  lemma {:induction false} SeedSpec(f: LedgerFile, dups: seq<string>)
    ensures |Lines(f)| <= |Lines(Seed(f, dups))| && Lines(Seed(f, dups))[..|Lines(f)|] == Lines(f)
    ensures forall i :: |Lines(f)| <= i < |Lines(Seed(f, dups))| ==>
      Lines(Seed(f, dups))[i] in dups && Lines(Seed(f, dups))[i] !in Load(f)
    ensures Load(f) <= Load(Seed(f, dups))
    ensures dups == [] ==> Seed(f, dups) == f
    decreases |dups|
  {
    if dups != [] {
      var init := dups[..|dups| - 1];
      var g := Seed(f, init);
      var d := dups[|dups| - 1];
      SeedSpec(f, init);
      assert forall x :: x in init ==> x in dups;
      if d !in Load(g) {
        LoadAppend(g, d);
        var h := Append(g, d);
        assert Lines(h) == Lines(g) + [d];
        assert Lines(h)[..|Lines(g)|] == Lines(g);
        assert Lines(h)[..|Lines(f)|] == Lines(g)[..|Lines(f)|];
        assert d !in Load(f);
      }
    }
  }

  /** Seeding and then appending keeps the ledger as found at its head. */
  lemma SeedThenExtend(f: LedgerFile, dups: seq<string>, names: seq<string>)
    ensures |Lines(f)| <= |Lines(Extend(Seed(f, dups), names))|
    ensures Lines(Extend(Seed(f, dups), names))[..|Lines(f)|] == Lines(f)
  {
    var seeded := Seed(f, dups);
    SeedSpec(f, dups);
    ExtendKeeps(seeded, names);
    var final := Lines(Extend(seeded, names));
    assert final[..|Lines(seeded)|][..|Lines(f)|] == final[..|Lines(f)|];
  }

  /** The last duplicate seeded is in the loaded ledger afterwards, and nothing loaded before is lost. */
  lemma SeedLast(f: LedgerFile, dups: seq<string>)
    requires dups != [] && IsPlainName(dups[|dups| - 1])
    ensures dups[|dups| - 1] in Load(Seed(f, dups))
    ensures Load(Seed(f, dups[..|dups| - 1])) <= Load(Seed(f, dups))
  {
    var g := Seed(f, dups[..|dups| - 1]);
    var d := dups[|dups| - 1];
    if d !in Load(g) {
      LoadAppendPlain(g, d);
    }
  }

  /** After seeding, every verified duplicate with a plain name is in the loaded ledger. */
  lemma {:induction false} SeedCovers(f: LedgerFile, dups: seq<string>)
    requires forall i :: 0 <= i < |dups| ==> IsPlainName(dups[i])
    ensures forall i :: 0 <= i < |dups| ==> dups[i] in Load(Seed(f, dups))
    decreases |dups|
  {
    if dups != [] {
      var init := dups[..|dups| - 1];
      SeedCovers(f, init);
      SeedLast(f, dups);
      forall i | 0 <= i < |dups| ensures dups[i] in Load(Seed(f, dups)) {
        if i < |init| { assert dups[i] == init[i]; }
      }
    }
  }

  /** Seeding names the ledger already yields changes nothing. */
  lemma {:induction false} SeedKnown(f: LedgerFile, dups: seq<string>)
    requires forall i :: 0 <= i < |dups| ==> dups[i] in Load(f)
    ensures Seed(f, dups) == f
    decreases |dups|
  {
    if dups != [] {
      SeedKnown(f, dups[..|dups| - 1]);
    }
  }

  /** Seeding twice leaves the ledger as seeding once did. */
  lemma SeedIdempotent(f: LedgerFile, dups: seq<string>)
    requires forall i :: 0 <= i < |dups| ==> IsPlainName(dups[i])
    ensures Seed(Seed(f, dups), dups) == Seed(f, dups)
  {
    SeedCovers(f, dups);
    SeedKnown(Seed(f, dups), dups);
  }

  /** With plain names, seeding never writes the same name twice, nor one the ledger already held. */
  lemma {:induction false} SeedAppendsOnce(f: LedgerFile, dups: seq<string>)
    requires forall i :: 0 <= i < |dups| ==> IsPlainName(dups[i])
    ensures forall i, j :: |Lines(f)| <= i < j < |Lines(Seed(f, dups))| ==>
      Lines(Seed(f, dups))[i] != Lines(Seed(f, dups))[j]
    decreases |dups|
  {
    if dups != [] {
      var init := dups[..|dups| - 1];
      var g := Seed(f, init);
      var d := dups[|dups| - 1];
      SeedAppendsOnce(f, init);
      if d !in Load(g) {
        SeedSpec(f, init);
        SeedCovers(f, init);
        var lines := Lines(g) + [d];
        assert Lines(Seed(f, dups)) == lines;
        forall i, j | |Lines(f)| <= i < j < |lines| ensures lines[i] != lines[j] {
          if j == |Lines(g)| {
            var k :| 0 <= k < |init| && init[k] == Lines(g)[i];
            assert lines[i] in Load(g);
          } else {
            assert lines[i] == Lines(g)[i] && lines[j] == Lines(g)[j];
          }
        }
      }
    }
  }

  /** What line 312 raises: `completed_file` is read before line 363 assigns it. */
  datatype Crash = UnboundLocalError(variable: string)

  /**
   * Lines 307-314 as written. The first verified duplicate makes the loop read the
   * local `completed_file`, which is only assigned at line 363, so Python raises
   * UnboundLocalError and the run ends there; with no duplicates the loop is skipped.
   */
  function SeedAsWritten(f: LedgerFile, dups: seq<string>): (r: Result<LedgerFile, Crash>)
    ensures r.Ok? <==> dups == []
    ensures r.Ok? ==> r.value == Seed(f, dups)
    ensures r.Err? ==> r.error == UnboundLocalError("completed_file")
  {
    if dups == [] then Ok(f) else Err(UnboundLocalError("completed_file"))
  }
}

=== FILE: migration.dfy ===
/**
 * The migration of each repository (lines 395-490): clone the source as a mirror,
 * create the destination repository, push the mirror, clean up, and record success
 * in the ledger. Clone and push are retried up to three times; create is tried once.
 * What each external command answers is an input (a StepScript); the commands the
 * loop issues are recorded as a trace of Actions.
 */
module Migration {
  import opened Common
  import opened Inventory
  import opened Ledger

  /** The retry bound set at line 419. */
  const MaxRetries: nat := 3

  /** How one command ended: it succeeded, or it raised with this message. */
  datatype Try = Success | Failure(detail: string)

  /**
   * What the commands for one repository answer: `clone(i)` and `push(i)` are the
   * results of attempt i (from 0) of `git clone --mirror` and `git push --mirror`,
   * `create` the result of `gh repo create`.
   */
  datatype StepScript = StepScript(clone: nat -> Try, create: Try, push: nat -> Try)

  /** How a retried step ended, and after how many attempts. */
  datatype StepResult = Succeeded(attempts: nat) | GaveUp(attempts: nat, detail: string)

  datatype Step = CloneStep | CreateStep | PushStep | CleanupStep

  /** The position of a step in the loop body: clone, create, push, clean-up. */
  function StepRank(s: Step): nat {
    match s
    case CloneStep => 0
    case CreateStep => 1
    case PushStep => 2
    case CleanupStep => 3
  }

  /**
   * One thing the loop did for `repo`: run the command of a step (its command line
   * is Argv), or, for CleanupStep, remove the repository's temporary clone.
   */
  datatype Action = Action(step: Step, repo: RepoRecord)

  datatype RepoOutcome = Migrated | Failed(step: Step, detail: string)

  /** The two organizations and the expanded temporary directory of a run. */
  datatype Target = Target(sourceOrg: string, destOrg: string, tempDir: string)

  /**
   * The retry loop from attempt `attempt` on: stop at the first success; after the
   * last allowed attempt fails, re-raise that attempt's error.
   */
  function RetryFrom(tries: nat -> Try, attempt: nat): (r: StepResult)
    requires attempt < MaxRetries
    ensures attempt < r.attempts <= MaxRetries
    ensures forall i :: attempt <= i < r.attempts - 1 ==> tries(i).Failure?
    ensures r.Succeeded? ==> tries(r.attempts - 1).Success?
    ensures r.GaveUp? ==> r.attempts == MaxRetries && tries(MaxRetries - 1) == Failure(r.detail)
    decreases MaxRetries - attempt
  {
    match tries(attempt)
    case Success => Succeeded(attempt + 1)
    case Failure(detail) =>
      if attempt == MaxRetries - 1 then GaveUp(MaxRetries, detail) else RetryFrom(tries, attempt + 1)
  }

  /** The bounded retry loop around one command (lines 420-432 and 451-463). */
  function Retry(tries: nat -> Try): StepResult {
    RetryFrom(tries, 0)
  }

  /**
   * A retried step is attempted between one and three times and stops at the first
   * success; it gives up exactly when all three attempts fail, reporting the last error.
   */
  lemma RetrySpec(tries: nat -> Try)
    ensures 1 <= Retry(tries).attempts <= MaxRetries
    ensures Retry(tries).Succeeded? <==> exists i :: 0 <= i < MaxRetries && tries(i).Success?
    ensures Retry(tries).Succeeded? ==>
      tries(Retry(tries).attempts - 1).Success? &&
      forall i :: 0 <= i < Retry(tries).attempts - 1 ==> tries(i).Failure?
    ensures Retry(tries).GaveUp? ==>
      Retry(tries).attempts == MaxRetries &&
      (forall i :: 0 <= i < MaxRetries ==> tries(i).Failure?) &&
      Retry(tries).detail == tries(MaxRetries - 1).detail
  {
    var r := Retry(tries);
    if r.Succeeded? {
      assert tries(r.attempts - 1).Success?;
    }
  }

  /** n copies of a, in a row. */
  function Repeat(a: Action, n: nat): (r: seq<Action>)
    ensures |r| == n && forall i :: 0 <= i < n ==> r[i] == a
  {
    if n == 0 then [] else Repeat(a, n - 1) + [a]
  }

  /**
   * The retry loop as the script runs it: the command `act` is issued once per
   * attempt, and the result is the one the retry specification gives.
   */
  method RunWithRetries(tries: nat -> Try, act: Action) returns (r: StepResult, issued: seq<Action>)
    ensures r == Retry(tries)
    ensures issued == Repeat(act, r.attempts)
  {
    var attempt := 0;
    issued := [];
    while true
      invariant attempt < MaxRetries
      invariant RetryFrom(tries, attempt) == Retry(tries)
      invariant issued == Repeat(act, attempt)
      decreases MaxRetries - attempt
    {
      issued := issued + [act];
      var outcome := tries(attempt);
      if outcome.Success? {
        return Succeeded(attempt + 1), issued;
      } else if attempt == MaxRetries - 1 {
        return GaveUp(MaxRetries, outcome.detail), issued;
      }
      attempt := attempt + 1;
    }
  }

  /**
   * Python's os.path.join of the temporary directory and the name (line 410): an
   * absolute name replaces the directory; otherwise a '/' is put between them unless
   * the directory is empty or already ends in one.
   */
  function JoinPath(dir: string, name: string): (path: string)
    ensures |name| <= |path| && path[|path| - |name|..] == name
  {
    if name != [] && name[0] == '/' then name
    else if dir == [] || dir[|dir| - 1] == '/' then dir + name
    else dir + "/" + name
  }

  /** The HTTPS URL of a repository on github.com: the clone URL (line 416) and push URL (line 448). */
  function RepoUrl(org: string, name: string): string {
    "https://github.com/" + org + "/" + name + ".git"
  }

  /** The description with every double quote replaced by a single quote (line 441). */
  function Sanitize(s: string): (r: string)
    ensures |r| == |s|
    ensures forall i :: 0 <= i < |s| ==> r[i] == (if s[i] == '"' then '\'' else s[i])
    ensures forall i :: 0 <= i < |r| ==> r[i] != '"'
    decreases |s|
  {
    if s == [] then []
    else [if s[0] == '"' then '\'' else s[0]] + Sanitize(s[1..])
  }

  /** The description as line 403 reads it: a missing or null description is empty. */
  function Description(repo: RepoRecord): string {
    match repo.description
    case None => ""
    case Some(d) => d
  }

  function CloneArgv(t: Target, name: string): seq<string> {
    ["git", "clone", "--mirror", RepoUrl(t.sourceOrg, name), JoinPath(t.tempDir, name)]
  }

  function PushArgv(t: Target, name: string): seq<string> {
    ["git", "-C", JoinPath(t.tempDir, name), "push", "--mirror", RepoUrl(t.destOrg, name)]
  }

  /**
   * The `gh repo create` command line of lines 436-442: the visibility flag follows
   * `isPrivate`, and a description flag is added only for a non-empty description,
   * with its double quotes turned into single quotes.
   */
  function CreateArgv(destOrg: string, repo: RepoRecord): (argv: seq<string>)
    ensures |argv| == (if Description(repo) == "" then 6 else 8)
    ensures argv[..4] == ["gh", "repo", "create", destOrg + "/" + repo.name] && argv[5] == "--clone=false"
    ensures argv[4] == "--private" <==> repo.isPrivate
    ensures argv[4] == "--public" <==> !repo.isPrivate
    ensures |argv| == 8 ==> argv[6] == "--description" && argv[7] == Sanitize(Description(repo))
  {
    var visibility := if repo.isPrivate then "--private" else "--public";
    var cmd := ["gh", "repo", "create", destOrg + "/" + repo.name, visibility, "--clone=false"];
    if Description(repo) != "" then cmd + ["--description", Sanitize(Description(repo))] else cmd
  }

  /**
   * The command line behind an action (lines 423, 436-442 and 454), or, for the
   * clean-up, the path removed.
   */
  function Argv(t: Target, a: Action): seq<string> {
    match a.step
    case CloneStep => CloneArgv(t, a.repo.name)
    case CreateStep => CreateArgv(t.destOrg, a.repo)
    case PushStep => PushArgv(t, a.repo.name)
    case CleanupStep => [JoinPath(t.tempDir, a.repo.name)]
  }

  /**
   * The clone writes, the push reads and the clean-up removes the same path, the
   * one named after the repository; the clone reads from the source organization
   * and the push writes to the destination.
   */
  lemma ArgvPaths(t: Target, repo: RepoRecord)
    ensures var path := Argv(t, Action(CleanupStep, repo))[0];
      && Argv(t, Action(CloneStep, repo))[4] == path
      && Argv(t, Action(PushStep, repo))[2] == path
      && path[|path| - |repo.name|..] == repo.name
    ensures Argv(t, Action(CloneStep, repo))[3] == RepoUrl(t.sourceOrg, repo.name)
    ensures Argv(t, Action(PushStep, repo))[5] == RepoUrl(t.destOrg, repo.name)
  {
  }

  /** What happened to one repository, and everything done for it in order. */
  datatype RepoReport = RepoReport(outcome: RepoOutcome, actions: seq<Action>)

  /**
   * The body of the migration loop for one repository (lines 400-490). Each failure
   * ends the repository at that step; the temporary clone is removed on every path.
   */
  function RepoRun(t: Target, repo: RepoRecord, script: StepScript): RepoReport {
    var cleanup := [Action(CleanupStep, repo)];
    var clone := Retry(script.clone);
    var cloned := Repeat(Action(CloneStep, repo), clone.attempts);
    if clone.GaveUp? then RepoReport(Failed(CloneStep, clone.detail), cloned + cleanup)
    else
      var created := cloned + [Action(CreateStep, repo)];
      if script.create.Failure? then RepoReport(Failed(CreateStep, script.create.detail), created + cleanup)
      else
        var push := Retry(script.push);
        var pushed := created + Repeat(Action(PushStep, repo), push.attempts);
        if push.GaveUp? then RepoReport(Failed(PushStep, push.detail), pushed + cleanup)
        else RepoReport(Migrated, pushed + cleanup)
  }

  lemma {:induction false} RepeatCount(x: Action, n: nat)
    ensures multiset(Repeat(x, n)) == multiset{}[x := n]
    decreases n
  {
    if n > 0 {
      RepeatCount(x, n - 1);
    }
  }

  /**
   * A repository is migrated exactly when clone succeeds within three attempts,
   * create succeeds, and push succeeds within three attempts; a failed step says
   * which step failed, with its last error.
   */
  lemma RepoRunOutcome(t: Target, repo: RepoRecord, script: StepScript)
    ensures RepoRun(t, repo, script).outcome.Migrated? <==>
      (exists i :: 0 <= i < MaxRetries && script.clone(i).Success?) &&
      script.create.Success? &&
      (exists i :: 0 <= i < MaxRetries && script.push(i).Success?)
    ensures RepoRun(t, repo, script).outcome.Failed? && RepoRun(t, repo, script).outcome.step == CloneStep <==>
      forall i :: 0 <= i < MaxRetries ==> script.clone(i).Failure?
    ensures RepoRun(t, repo, script).outcome.Failed? ==>
      match RepoRun(t, repo, script).outcome.step
      case CloneStep => script.clone(MaxRetries - 1) == Failure(RepoRun(t, repo, script).outcome.detail)
      case CreateStep => script.create == Failure(RepoRun(t, repo, script).outcome.detail)
      case PushStep => script.push(MaxRetries - 1) == Failure(RepoRun(t, repo, script).outcome.detail)
      case CleanupStep => false
    ensures RepoRun(t, repo, script).outcome.Failed? && RepoRun(t, repo, script).outcome.step == CreateStep <==>
      Retry(script.clone).Succeeded? && script.create.Failure?
  {
    RetrySpec(script.clone);
    RetrySpec(script.push);
  }

  /**
   * The actions for one repository, counted: clone once per attempt, create once if
   * the clone succeeded, push once per attempt if create succeeded, the clean-up once.
   */
  lemma RepoRunSteps(t: Target, repo: RepoRecord, script: StepScript)
    ensures multiset(RepoRun(t, repo, script).actions)[Action(CloneStep, repo)] == Retry(script.clone).attempts
    ensures multiset(RepoRun(t, repo, script).actions)[Action(CreateStep, repo)] ==
      if Retry(script.clone).Succeeded? then 1 else 0
    ensures multiset(RepoRun(t, repo, script).actions)[Action(PushStep, repo)] ==
      if Retry(script.clone).Succeeded? && script.create.Success? then Retry(script.push).attempts else 0
    ensures multiset(RepoRun(t, repo, script).actions)[Action(CleanupStep, repo)] == 1
  {
    var clone := Retry(script.clone);
    var push := Retry(script.push);
    var c, cr, p, cl := Action(CloneStep, repo), Action(CreateStep, repo), Action(PushStep, repo), Action(CleanupStep, repo);
    RepeatCount(c, clone.attempts);
    RepeatCount(p, push.attempts);
    var acts := RepoRun(t, repo, script).actions;
    if clone.GaveUp? {
      assert acts == Repeat(c, clone.attempts) + [cl];
    } else if script.create.Failure? {
      assert acts == Repeat(c, clone.attempts) + [cr] + [cl];
    } else {
      assert acts == Repeat(c, clone.attempts) + [cr] + Repeat(p, push.attempts) + [cl];
    }
  }

  /**
   * For one repository: clone runs one to three times, create at most once and only
   * after a successful clone, push at most three times and only after a successful
   * create, and the clean-up exactly once.
   */
  lemma RepoRunActions(t: Target, repo: RepoRecord, script: StepScript)
    ensures 1 <= multiset(RepoRun(t, repo, script).actions)[Action(CloneStep, repo)] <= MaxRetries
    ensures multiset(RepoRun(t, repo, script).actions)[Action(CreateStep, repo)] <= 1
    ensures multiset(RepoRun(t, repo, script).actions)[Action(CreateStep, repo)] == 1 <==>
      exists i :: 0 <= i < MaxRetries && script.clone(i).Success?
    ensures multiset(RepoRun(t, repo, script).actions)[Action(PushStep, repo)] <= MaxRetries
    ensures multiset(RepoRun(t, repo, script).actions)[Action(PushStep, repo)] > 0 <==>
      (exists i :: 0 <= i < MaxRetries && script.clone(i).Success?) && script.create.Success?
    ensures multiset(RepoRun(t, repo, script).actions)[Action(CleanupStep, repo)] == 1
  {
    RetrySpec(script.clone);
    RetrySpec(script.push);
    RepoRunSteps(t, repo, script);
  }

  /** Every action for a repository concerns that repository, and the clean-up comes last. */
  lemma RepoRunShape(t: Target, repo: RepoRecord, script: StepScript)
    ensures RepoRun(t, repo, script).actions != []
    ensures RepoRun(t, repo, script).actions[|RepoRun(t, repo, script).actions| - 1] == Action(CleanupStep, repo)
    ensures forall a :: a in RepoRun(t, repo, script).actions ==> a.repo == repo
  {
  }

  /**
   * The steps for a repository come in the order of the loop body (lines 420-468):
   * every clone before the create, the create before every push, the clean-up last.
   */
  lemma RepoRunOrder(t: Target, repo: RepoRecord, script: StepScript)
    ensures var acts := RepoRun(t, repo, script).actions;
      forall i, j :: 0 <= i < j < |acts| ==> StepRank(acts[i].step) <= StepRank(acts[j].step)
  {
  }

  /**
   * The same loop body as the script runs it, with the two retry loops; the result
   * is the one RepoRun specifies.
   */
  method MigrateRepository(t: Target, repo: RepoRecord, script: StepScript)
    returns (outcome: RepoOutcome, actions: seq<Action>)
    ensures RepoReport(outcome, actions) == RepoRun(t, repo, script)
  {
    var clone, cloned := RunWithRetries(script.clone, Action(CloneStep, repo));
    actions := cloned;
    if clone.GaveUp? {
      outcome := Failed(CloneStep, clone.detail);
    } else {
      actions := actions + [Action(CreateStep, repo)];
      if script.create.Failure? {
        outcome := Failed(CreateStep, script.create.detail);
      } else {
        var push, pushed := RunWithRetries(script.push, Action(PushStep, repo));
        actions := actions + pushed;
        outcome := if push.GaveUp? then Failed(PushStep, push.detail) else Migrated;
      }
    }
    actions := actions + [Action(CleanupStep, repo)];
  }

  /** The counters, ledger lines, actions and outcomes after a prefix of the work list. */
  datatype BatchReport = BatchReport(
    successful: nat,
    failed: nat,
    completed: seq<string>,
    actions: seq<Action>,
    outcomes: seq<RepoOutcome>)

  /** One iteration's bookkeeping: a success raises `successful` and appends the name to the ledger, a failure raises `failed`. */
  function Record(prev: BatchReport, repo: RepoRecord, rep: RepoReport): BatchReport {
    if rep.outcome.Migrated? then
      BatchReport(prev.successful + 1, prev.failed, prev.completed + [repo.name],
        prev.actions + rep.actions, prev.outcomes + [rep.outcome])
    else
      BatchReport(prev.successful, prev.failed + 1, prev.completed,
        prev.actions + rep.actions, prev.outcomes + [rep.outcome])
  }

  /** The bookkeeping of the loop, given what happened to each repository. */
  function Tally(work: seq<RepoRecord>, reports: seq<RepoReport>): (b: BatchReport)
    requires |reports| == |work|
    ensures b.successful + b.failed == |work|
    ensures |b.outcomes| == |work|
    ensures |b.completed| == b.successful
    decreases |work|
  {
    if work == [] then BatchReport(0, 0, [], [], [])
    else
      var k := |work| - 1;
      Record(Tally(work[..k], reports[..k]), work[k], reports[k])
  }

  /** One more iteration of the loop, whose repository ended as `rep`. */
  lemma BatchPrefix(t: Target, work: seq<RepoRecord>, scripts: nat -> StepScript, i: nat, rep: RepoReport)
    requires i < |work| && rep == RepoRun(t, work[i], scripts(i))
    ensures Tally(work[..i + 1], Reports(t, work, scripts)[..i + 1]) ==
      Record(Tally(work[..i], Reports(t, work, scripts)[..i]), work[i], rep)
  {
    TallyPrefix(work, Reports(t, work, scripts), i);
  }

  /** Tallying one more repository is one more iteration's bookkeeping. */
  lemma TallyPrefix(work: seq<RepoRecord>, reports: seq<RepoReport>, i: nat)
    requires |reports| == |work| && i < |work|
    ensures Tally(work[..i + 1], reports[..i + 1]) == Record(Tally(work[..i], reports[..i]), work[i], reports[i])
  {
    assert work[..i + 1][..i] == work[..i];
    assert reports[..i + 1][..i] == reports[..i];
  }

  /**
   * `successful` counts the migrated outcomes (line 478) and `failed` the others
   * (line 489).
   */
  lemma {:induction false} TallyCounts(work: seq<RepoRecord>, reports: seq<RepoReport>)
    requires |reports| == |work|
    ensures Tally(work, reports).successful == multiset(Tally(work, reports).outcomes)[Migrated]
    ensures Tally(work, reports).failed == |work| - multiset(Tally(work, reports).outcomes)[Migrated]
    decreases |work|
  {
    if work != [] {
      var k := |work| - 1;
      TallyCounts(work[..k], reports[..k]);
    }
  }

  /** The i-th outcome is the i-th repository's. */
  lemma {:induction false} TallyOutcomes(work: seq<RepoRecord>, reports: seq<RepoReport>)
    requires |reports| == |work|
    ensures forall i :: 0 <= i < |work| ==> Tally(work, reports).outcomes[i] == reports[i].outcome
    decreases |work|
  {
    if work != [] {
      var k := |work| - 1;
      TallyOutcomes(work[..k], reports[..k]);
      assert forall i :: 0 <= i < k ==> reports[..k][i] == reports[i];
    }
  }

  /** A name is appended exactly when a repository of that name succeeded. */
  lemma {:induction false} TallyCompleted(work: seq<RepoRecord>, reports: seq<RepoReport>)
    requires |reports| == |work|
    ensures forall n :: n in Tally(work, reports).completed <==>
      exists i :: 0 <= i < |work| && work[i].name == n && reports[i].outcome.Migrated?
    decreases |work|
  {
    if work != [] {
      var k := |work| - 1;
      var init, irep := work[..k], reports[..k];
      TallyCompleted(init, irep);
      assert forall i :: 0 <= i < k ==> init[i] == work[i] && irep[i] == reports[i];
      forall n | exists i :: 0 <= i < |work| && work[i].name == n && reports[i].outcome.Migrated?
        ensures n in Tally(work, reports).completed
      {
        var i :| 0 <= i < |work| && work[i].name == n && reports[i].outcome.Migrated?;
        if i < k {
          assert init[i].name == n && irep[i].outcome.Migrated?;
        }
      }
    }
  }

  /** The per-repository traces joined in work-list order. */
  function Joined(reports: seq<RepoReport>): seq<Action>
    decreases |reports|
  {
    if reports == [] then [] else reports[0].actions + Joined(reports[1..])
  }

  lemma {:induction false} JoinedAppend(reports: seq<RepoReport>, x: RepoReport)
    ensures Joined(reports + [x]) == Joined(reports) + x.actions
    decreases |reports|
  {
    if reports == [] {
      assert [] + [x] == [x];
      assert [x][1..] == [];
    } else {
      JoinedAppend(reports[1..], x);
      assert (reports + [x])[1..] == reports[1..] + [x];
      assert reports[0].actions + (Joined(reports[1..]) + x.actions) ==
        reports[0].actions + Joined(reports[1..]) + x.actions;
    }
  }

  /** An action is in the joined trace exactly when it is in one repository's trace. */
  lemma {:induction false} JoinedMembers(reports: seq<RepoReport>)
    ensures forall a :: a in Joined(reports) <==> exists i :: 0 <= i < |reports| && a in reports[i].actions
    decreases |reports|
  {
    if reports != [] {
      JoinedMembers(reports[1..]);
      forall a | exists i :: 0 <= i < |reports| && a in reports[i].actions
        ensures a in Joined(reports)
      {
        var i :| 0 <= i < |reports| && a in reports[i].actions;
        if i > 0 { assert reports[1..][i - 1] == reports[i]; }
      }
      forall a | a in Joined(reports[1..])
        ensures exists i :: 0 <= i < |reports| && a in reports[i].actions
      {
        var i :| 0 <= i < |reports[1..]| && a in reports[1..][i].actions;
        assert reports[i + 1] == reports[1..][i];
      }
    }
  }

  /** The loop's trace is every repository's trace, in work-list order, nothing left out or added. */
  lemma {:induction false} TallyTrace(work: seq<RepoRecord>, reports: seq<RepoReport>)
    requires |reports| == |work|
    ensures Tally(work, reports).actions == Joined(reports)
    decreases |work|
  {
    if work != [] {
      var k := |work| - 1;
      TallyTrace(work[..k], reports[..k]);
      JoinedAppend(reports[..k], reports[k]);
      assert reports[..k] + [reports[k]] == reports;
    }
  }

  /** An action is in the loop's trace exactly when it is in the trace of one of the repositories. */
  lemma TallyActions(work: seq<RepoRecord>, reports: seq<RepoReport>)
    requires |reports| == |work|
    ensures forall a :: a in Tally(work, reports).actions <==>
      exists i :: 0 <= i < |work| && a in reports[i].actions
  {
    TallyTrace(work, reports);
    JoinedMembers(reports);
  }

  /** What happened to each repository of the work list; `scripts(i)` answers for the i-th. */
  function Reports(t: Target, work: seq<RepoRecord>, scripts: nat -> StepScript): (reports: seq<RepoReport>)
    ensures |reports| == |work|
    ensures forall i :: 0 <= i < |work| ==> reports[i] == RepoRun(t, work[i], scripts(i))
  {
    seq(|work|, i requires 0 <= i < |work| => RepoRun(t, work[i], scripts(i)))
  }

  /** The migration loop over `work`, as a value. */
  function Batch(t: Target, work: seq<RepoRecord>, scripts: nat -> StepScript): BatchReport {
    Tally(work, Reports(t, work, scripts))
  }

  /**
   * Over the whole loop: each repository raises exactly one counter; the i-th
   * outcome is what RepoRun gives for the i-th repository; a name is written to the
   * ledger exactly when a repository of that name was migrated; and every action
   * concerns a repository of the work list.
   */
  lemma BatchSpec(t: Target, work: seq<RepoRecord>, scripts: nat -> StepScript)
    ensures Batch(t, work, scripts).successful + Batch(t, work, scripts).failed == |work|
    ensures Batch(t, work, scripts).successful == multiset(Batch(t, work, scripts).outcomes)[Migrated]
    ensures forall i :: 0 <= i < |work| ==>
      Batch(t, work, scripts).outcomes[i] == RepoRun(t, work[i], scripts(i)).outcome
    ensures forall n :: n in Batch(t, work, scripts).completed <==>
      exists i :: 0 <= i < |work| && work[i].name == n && RepoRun(t, work[i], scripts(i)).outcome.Migrated?
    ensures forall a :: a in Batch(t, work, scripts).actions ==> exists i :: 0 <= i < |work| && a.repo == work[i]
  {
    var reports := Reports(t, work, scripts);
    TallyCounts(work, reports);
    TallyOutcomes(work, reports);
    TallyCompleted(work, reports);
    TallyActions(work, reports);
    forall a | a in Batch(t, work, scripts).actions
      ensures exists i :: 0 <= i < |work| && a.repo == work[i]
    {
      var i :| 0 <= i < |work| && a in reports[i].actions;
      RepoRunShape(t, work[i], scripts(i));
    }
  }

  /**
   * The loop's trace is the repositories' traces joined in work-list order; in
   * particular every action of every repository's iteration is in it.
   */
  lemma BatchTrace(t: Target, work: seq<RepoRecord>, scripts: nat -> StepScript)
    ensures Batch(t, work, scripts).actions == Joined(Reports(t, work, scripts))
    ensures forall i, a :: 0 <= i < |work| && a in RepoRun(t, work[i], scripts(i)).actions ==>
      a in Batch(t, work, scripts).actions
  {
    var reports := Reports(t, work, scripts);
    TallyTrace(work, reports);
    JoinedMembers(reports);
    forall i, a | 0 <= i < |work| && a in RepoRun(t, work[i], scripts(i)).actions
      ensures a in Batch(t, work, scripts).actions
    {
      assert a in reports[i].actions;
    }
  }

  /**
   * The migration loop of lines 395-490: one repository at a time, one of the two
   * counters goes up, and on success the name is appended to the ledger (line 472),
   * which therefore only grows.
   */
  method MigrateAll(t: Target, work: seq<RepoRecord>, scripts: nat -> StepScript, ledger0: LedgerFile)
    returns (successful: nat, failed: nat, ledger: LedgerFile, actions: seq<Action>, outcomes: seq<RepoOutcome>)
    ensures var b := Batch(t, work, scripts);
      successful == b.successful && failed == b.failed && actions == b.actions && outcomes == b.outcomes
    ensures ledger == Extend(ledger0, Batch(t, work, scripts).completed)
    ensures successful + failed == |work|
  {
    ghost var reports := Reports(t, work, scripts);
    successful, failed, ledger, actions, outcomes := 0, 0, ledger0, [], [];
    for i := 0 to |work|
      invariant var b := Tally(work[..i], reports[..i]);
        && successful == b.successful && failed == b.failed && actions == b.actions && outcomes == b.outcomes
        && ledger == Extend(ledger0, b.completed)
    {
      var outcome, acts := MigrateRepository(t, work[i], scripts(i));
      BatchPrefix(t, work, scripts, i, RepoReport(outcome, acts));
      actions := actions + acts;
      outcomes := outcomes + [outcome];
      if outcome.Migrated? {
        ExtendAppend(ledger0, Tally(work[..i], reports[..i]).completed, work[i].name);
        ledger := Append(ledger, work[i].name);
        successful := successful + 1;
      } else {
        failed := failed + 1;
      }
    }
    assert work[..|work|] == work;
    assert reports[..|work|] == reports;
  }
}

=== FILE: orchestration.dfy ===
/**
 * One run of the script from the inventories on (lines 269-490): detect the
 * conflicting names, stop if any of them is not an identical duplicate, seed the
 * ledger with the verified duplicates, compute the work list, and migrate it.
 */
module Orchestration {
  import opened Common
  import opened Text
  import opened Inventory
  import opened Conflicts
  import opened Ledger
  import opened Schedule
  import opened Migration

  /**
   * Everything a run depends on: the organizations and temporary directory, both
   * inventories, what the hosting API answers, the ledger file as found, and what
   * the commands for the i-th repository of the work list answer.
   */
  datatype Env = Env(
    target: Target,
    source: seq<RepoRecord>,
    dest: seq<RepoRecord>,
    hosting: Hosting,
    ledger: LedgerFile,
    scripts: nat -> StepScript)

  /** A run ends at the conflict gate (`sys.exit(1)`), or after the migration loop. */
  datatype RunResult =
    | ConflictAbort(divergent: seq<string>)
    | Finished(total: nat, successful: nat, failed: nat, ledger: LedgerFile,
               actions: seq<Action>, outcomes: seq<RepoOutcome>)

  function ExitStatus(r: RunResult): (status: int)
    ensures status == 1 <==> r.ConflictAbort?
    ensures status == 0 <==> r.Finished?
  {
    if r.ConflictAbort? then 1 else 0
  }

  /** `sorted(conflicts)`: the lowered conflicting names in ascending order (line 283). */
  function ConflictOrder(env: Env): seq<string> {
    SortedNames(ConflictKeys(env.source, env.dest))
  }

  /** Every conflicting name has a source spelling: the lookup at line 284 cannot fail. */
  lemma ConflictsIndexed(env: Env)
    ensures forall i :: 0 <= i < |ConflictOrder(env)| ==> ConflictOrder(env)[i] in NameIndex(env.source)
  {
    NameIndexSpec(env.source);
    var order := ConflictOrder(env);
    forall i | 0 <= i < |order| ensures order[i] in NameIndex(env.source) {
      assert order[i] in ConflictKeys(env.source, env.dest);
    }
  }

  /** `verified_duplicates` after the loop at lines 283-294. */
  function VerifiedDuplicates(env: Env): seq<string> {
    ConflictsIndexed(env);
    Duplicates(ConflictOrder(env), NameIndex(env.source), env.hosting)
  }

  /** `actual_conflicts` after the loop at lines 283-294. */
  function ActualConflicts(env: Env): seq<string> {
    ConflictsIndexed(env);
    Divergent(ConflictOrder(env), NameIndex(env.source), env.hosting)
  }

  /** The ledger after seeding, with the intended reading of lines 311-314. */
  function SeededLedger(env: Env): LedgerFile {
    Seed(env.ledger, VerifiedDuplicates(env))
  }

  /** `remaining_repos` after the sort at line 392. */
  function Pending(env: Env): seq<RepoRecord> {
    WorkList(env.source, Load(SeededLedger(env)))
  }

  /**
   * The gate stops the run exactly when some conflicting name, looked up under its
   * source spelling, is not an identical duplicate.
   */
  lemma GateSpec(env: Env)
    ensures ActualConflicts(env) != [] <==>
      exists k :: k in ConflictKeys(env.source, env.dest) && k in NameIndex(env.source) &&
        Verify(env.hosting, NameIndex(env.source)[k]).Different?
  {
    ConflictsIndexed(env);
    DivergentAnyOrder(ConflictOrder(env), ConflictKeys(env.source, env.dest), NameIndex(env.source), env.hosting);
  }

  /**
   * Lines 298-305, with the intended seeding: the script exits with status 1
   * exactly when some conflicting name, looked up under its source spelling, is
   * not an identical duplicate. As written, a verified duplicate also ends the
   * script with an error, at line 312 (see SeedingCrashesOnDuplicate).
   */
  lemma RunExitStatus(env: Env)
    ensures ExitStatus(RunResultOf(env)) == 1 <==>
      exists k :: k in ConflictKeys(env.source, env.dest) && k in NameIndex(env.source) &&
        Verify(env.hosting, NameIndex(env.source)[k]).Different?
  {
    GateSpec(env);
  }

  /**
   * What a run ends with: the conflict gate's verdict, or else the migration of the
   * pending repositories on top of the seeded ledger.
   */
  function RunResultOf(env: Env): RunResult {
    if ActualConflicts(env) != [] then ConflictAbort(ActualConflicts(env))
    else
      var b := Batch(env.target, Pending(env), env.scripts);
      Finished(|Pending(env)|, b.successful, b.failed, Extend(SeededLedger(env), b.completed), b.actions, b.outcomes)
  }

  /** Lines 269-490: one run of the script. */
  method Run(env: Env) returns (r: RunResult)
    ensures r == RunResultOf(env)
  {
    var order := ConflictOrder(env);
    ConflictsIndexed(env);
    var actual, verified := VerifyConflicts(order, NameIndex(env.source), env.hosting);
    if actual != [] {
      return ConflictAbort(actual);
    }
    var seeded := Seed(env.ledger, verified);
    var work := WorkList(env.source, Load(seeded));
    var successful, failed, ledger, actions, outcomes := MigrateAll(env.target, work, env.scripts, seeded);
    r := Finished(|work|, successful, failed, ledger, actions, outcomes);
  }

  /**
   * The gate (lines 296-304): a run that stops there reports only names whose
   * copies differ, and a run that goes on found every conflict an identical copy.
   */
  lemma RunAborts(env: Env)
    ensures RunResultOf(env).ConflictAbort? ==>
      RunResultOf(env).divergent != [] &&
      forall n :: n in RunResultOf(env).divergent ==> Verify(env.hosting, n).Different?
    ensures RunResultOf(env).Finished? ==>
      forall k :: k in ConflictKeys(env.source, env.dest) && k in NameIndex(env.source) ==>
        Verify(env.hosting, NameIndex(env.source)[k]).Identical?
  {
    ConflictsIndexed(env);
    DivergentSpec(ConflictOrder(env), NameIndex(env.source), env.hosting);
    GateSpec(env);
  }

  /**
   * A run that passes the gate visits every pending repository once and reports
   * the outcome of each in work-list order.
   */
  lemma RunCounts(env: Env)
    requires RunResultOf(env).Finished?
    ensures RunResultOf(env).total == |Pending(env)|
    ensures RunResultOf(env).successful + RunResultOf(env).failed == RunResultOf(env).total
    ensures RunResultOf(env).successful == multiset(RunResultOf(env).outcomes)[Migrated]
    ensures forall i :: 0 <= i < |Pending(env)| ==>
      RunResultOf(env).outcomes[i] == RepoRun(env.target, Pending(env)[i], env.scripts(i)).outcome
  {
    BatchSpec(env.target, Pending(env), env.scripts);
  }

  /**
   * A run that passes the gate leaves the ledger as found, followed by the seeded
   * duplicates and then by the names it migrated.
   */
  lemma RunLedger(env: Env)
    requires RunResultOf(env).Finished?
    ensures |Lines(env.ledger)| <= |Lines(RunResultOf(env).ledger)|
    ensures Lines(RunResultOf(env).ledger)[..|Lines(env.ledger)|] == Lines(env.ledger)
    ensures Lines(RunResultOf(env).ledger) ==
      Lines(SeededLedger(env)) + Batch(env.target, Pending(env), env.scripts).completed
  {
    var done := Batch(env.target, Pending(env), env.scripts).completed;
    assert RunResultOf(env).ledger == Extend(SeededLedger(env), done);
    SeedThenExtend(env.ledger, VerifiedDuplicates(env), done);
  }

  /**
   * Every pending repository is worked on: it is cloned at least once, and its
   * temporary clone is removed.
   */
  lemma RunVisitsAll(env: Env)
    requires RunResultOf(env).Finished?
    ensures forall i :: 0 <= i < |Pending(env)| ==>
      Action(CloneStep, Pending(env)[i]) in RunResultOf(env).actions &&
      Action(CleanupStep, Pending(env)[i]) in RunResultOf(env).actions
  {
    var work := Pending(env);
    assert RunResultOf(env).actions == Batch(env.target, work, env.scripts).actions;
    BatchTrace(env.target, work, env.scripts);
    forall i | 0 <= i < |work|
      ensures Action(CloneStep, work[i]) in RunRepoActions(env, i)
      ensures Action(CleanupStep, work[i]) in RunRepoActions(env, i)
    {
      RepoRunActions(env.target, work[i], env.scripts(i));
      RepoRunShape(env.target, work[i], env.scripts(i));
    }
  }

  /** The actions of the i-th pending repository's iteration. */
  function RunRepoActions(env: Env, i: nat): seq<Action>
    requires i < |Pending(env)|
  {
    RepoRun(env.target, Pending(env)[i], env.scripts(i)).actions
  }

  /** A run never touches a repository the ledger names, as found or as seeded. */
  lemma RunSkipsLedger(env: Env)
    requires RunResultOf(env).Finished?
    ensures forall a :: a in RunResultOf(env).actions ==>
      a.repo in env.source && a.repo.name !in Load(SeededLedger(env)) && a.repo.name !in Load(env.ledger)
  {
    assert RunResultOf(env).actions == Batch(env.target, Pending(env), env.scripts).actions;
    PendingActions(env);
  }

  /** The migration of the pending list touches only source repositories absent from the ledger. */
  lemma PendingActions(env: Env)
    ensures forall a :: a in Batch(env.target, Pending(env), env.scripts).actions ==>
      a.repo in env.source && a.repo.name !in Load(SeededLedger(env)) && a.repo.name !in Load(env.ledger)
  {
    var work := Pending(env);
    var seeded := SeededLedger(env);
    BatchSpec(env.target, work, env.scripts);
    WorkListMembers(env.source, Load(seeded));
    SeedSpec(env.ledger, VerifiedDuplicates(env));
    forall a | a in Batch(env.target, work, env.scripts).actions
      ensures a.repo in env.source && a.repo.name !in Load(seeded) && a.repo.name !in Load(env.ledger)
    {
      var i :| 0 <= i < |work| && a.repo == work[i];
    }
  }

  /** After seeding, the ledger yields every verified duplicate whose name is plain. */
  lemma SeededCoversDuplicates(env: Env)
    requires forall i :: 0 <= i < |VerifiedDuplicates(env)| ==> IsPlainName(VerifiedDuplicates(env)[i])
    ensures forall n :: n in VerifiedDuplicates(env) ==> n in Load(SeededLedger(env))
  {
    SeedCovers(env.ledger, VerifiedDuplicates(env));
  }

  /**
   * A verified duplicate is skipped: no repository of the work list bears its name,
   * so the run neither clones, creates nor pushes it.
   */
  lemma DuplicatesSkipped(env: Env)
    requires forall i :: 0 <= i < |VerifiedDuplicates(env)| ==> IsPlainName(VerifiedDuplicates(env)[i])
    ensures forall r, n :: r in Pending(env) && n in VerifiedDuplicates(env) ==> r.name != n
  {
    SeededCoversDuplicates(env);
  }

  /**
   * Resuming: after a run, loading its ledger yields every name it migrated, so a
   * later run that passes the gate computes a work list holding none of them, nor
   * anything the earlier ledger already named. The gate itself sees the
   * destination the earlier run left behind (see ResumeAfterFailedPush).
   */
  lemma ResumeSkipsMigrated(before: LedgerFile, migrated: seq<string>, source: seq<RepoRecord>)
    requires forall i :: 0 <= i < |migrated| ==> IsPlainName(migrated[i])
    ensures forall r :: r in WorkList(source, Load(Extend(before, migrated))) ==>
      r.name !in migrated && r.name !in Load(before)
  {
    LoadExtend(before, migrated);
  }

  /** In the scenario the only conflict is "tools", spelled "Tools" in the source. */
  lemma ScenarioConflicts()
    ensures ConflictOrder(CrashScenario()) == ["tools"]
    ensures NameIndex(CrashScenario().source) == map["tools" := "Tools"]
  {
    var env := CrashScenario();
    SingletonIndex(env.source[0]);
    SingletonIndex(env.dest[0]);
    assert env.source == [env.source[0]] && env.dest == [env.dest[0]];
    assert Lower("Tools") == "tools";
    assert Lower("tools") == "tools";
    assert ConflictKeys(env.source, env.dest) == {"tools"};
    SortedSingleton("tools");
  }

  /** In the scenario both copies of "Tools" have branch "main" at the same commit. */
  lemma ScenarioIdentical()
    ensures Verify(CrashScenario().hosting, "Tools") == Identical
  {
    SortedSingleton("main");
  }

  lemma ScenarioPlainName()
    ensures IsPlainName("Tools")
  {
    var s := "Tools";
    assert s[0] == 'T' && s[1] == 'o' && s[2] == 'o' && s[3] == 'l' && s[4] == 's';
    forall k | 0 <= k < |s| ensures !IsSpace(s[k]) {
      assert s[k] in "Tols";
    }
  }

  /** A run whose one conflict verifies as identical has that conflict as its one duplicate and no divergence. */
  lemma OneIdenticalConflict(env: Env, k: string, n: string)
    requires ConflictOrder(env) == [k] && NameIndex(env.source) == map[k := n]
    requires Verify(env.hosting, n).Identical?
    ensures VerifiedDuplicates(env) == [n] && ActualConflicts(env) == []
  {
    SingleConflict(k, map[k := n], env.hosting);
  }

  /** In the scenario "Tools" is the one verified duplicate, and nothing diverges. */
  lemma ScenarioDuplicates()
    ensures VerifiedDuplicates(CrashScenario()) == ["Tools"]
    ensures ActualConflicts(CrashScenario()) == []
  {
    ScenarioConflicts();
    ScenarioIdentical();
    OneIdenticalConflict(CrashScenario(), "tools", "Tools");
  }

  /** Seeding a missing ledger with one plain name creates it holding just that name. */
  lemma SeedFreshLedger(n: string)
    requires IsPlainName(n)
    ensures Load(Seed(None, [n])) == {n}
  {
    assert [n][..0] == [];
    assert Seed(None, [n]) == Append(None, n);
    LoadAppendPlain(None, n);
  }

  /** In the scenario the intended seeding creates the ledger with the single line "Tools". */
  lemma ScenarioSeeded()
    ensures Load(SeededLedger(CrashScenario())) == {"Tools"}
  {
    ScenarioDuplicates();
    ScenarioPlainName();
    SeedFreshLedger("Tools");
  }

  /**
   * Line 312 as written: with one verified duplicate the run crashes before the
   * migration, while the intended seeding records the duplicate and leaves it out
   * of the work list. Source "Tools" and destination "tools" hold the same single
   * branch at the same commit.
   */
  lemma SeedingCrashesOnDuplicate()
    ensures ActualConflicts(CrashScenario()) == []
    ensures SeedAsWritten(CrashScenario().ledger, VerifiedDuplicates(CrashScenario())) ==
      Err(UnboundLocalError("completed_file"))
    ensures Pending(CrashScenario()) == []
  {
    ScenarioDuplicates();
    ScenarioSeeded();
    var env := CrashScenario();
    assert Remaining(env.source, {"Tools"}) == [];
  }

  /** The environment of SeedingCrashesOnDuplicate; the ledger file does not exist yet. */
  function CrashScenario(): Env {
    var view := RepoView(Some({"main"}), map["main" := "c0ffee"]);
    Env(
      Target("acme", "acme-new", "/tmp/mirror"),
      [RepoRecord("Tools", "2020-01-01T00:00:00Z", false, None, 10, false)],
      [RepoRecord("tools", "2024-05-05T00:00:00Z", false, None, 10, false)],
      Hosting(map["Tools" := view], map["Tools" := view]),
      None,
      _ => StepScript(_ => Success, Success, _ => Success))
  }

  /** A run whose one conflict fails verification stops at the gate, naming that conflict. */
  lemma OneDivergentConflict(env: Env, k: string, n: string)
    requires ConflictOrder(env) == [k] && NameIndex(env.source) == map[k := n]
    requires Verify(env.hosting, n).Different?
    ensures RunResultOf(env) == ConflictAbort([n])
  {
    SingleConflict(k, map[k := n], env.hosting);
  }

  /**
   * Resuming after a failed push: an earlier run created "B" in the destination
   * and its push failed, so the ledger does not name "B" and the destination copy
   * is empty. Listing an empty repository's branches yields the set holding the
   * empty name (lines 150-151), which differs from the source's, so the re-run
   * stops at the gate before anything is cloned.
   */
  lemma ResumeAfterFailedPush()
    ensures RunResultOf(ResumeScenario()) == ConflictAbort(["B"])
  {
    var env := ResumeScenario();
    SingletonIndex(env.source[0]);
    SingletonIndex(env.dest[0]);
    assert env.source == [env.source[0]] && env.dest == [env.dest[0]];
    assert Lower("B") == "b";
    assert ConflictKeys(env.source, env.dest) == {"b"};
    SortedSingleton("b");
    assert "main" !in {""};
    assert Verify(env.hosting, "B") == Different(BranchNamesDiffer);
    OneDivergentConflict(env, "b", "B");
  }

  /** The environment of ResumeAfterFailedPush: no ledger, and an empty copy of "B" in the destination. */
  function ResumeScenario(): Env {
    Env(
      Target("acme", "acme-new", "/tmp/mirror"),
      [RepoRecord("B", "2020-01-01T00:00:00Z", false, None, 10, false)],
      [RepoRecord("B", "2024-05-05T00:00:00Z", false, None, 0, false)],
      Hosting(map["B" := RepoView(Some({"main"}), map["main" := "c0ffee"])],
              map["B" := RepoView(Some({""}), map[])]),
      None,
      _ => StepScript(_ => Success, Success, _ => Success))
  }
}

=== FILE: schedule.dfy ===
/**
 * The work list of a run: the source repositories the ledger does not name
 * (line 369), ordered oldest first by `createdAt` with a stable sort (line 392).
 */
module Schedule {
  import opened Text
  import opened Inventory

  /** Line 369: the source repositories, in order, whose exact (case-sensitive) name is not in `completed`. */
  function Remaining(repos: seq<RepoRecord>, completed: set<string>): seq<RepoRecord>
    decreases |repos|
  {
    if repos == [] then []
    else
      var last := repos[|repos| - 1];
      Remaining(repos[..|repos| - 1], completed) + (if last.name in completed then [] else [last])
  }

  /**
   * No remaining repository is named by the ledger, and every other source
   * repository remains as often as it occurs.
   */
  lemma {:induction false} RemainingSpec(repos: seq<RepoRecord>, completed: set<string>)
    ensures forall r :: r in Remaining(repos, completed) ==> r.name !in completed
    ensures forall r :: multiset(Remaining(repos, completed))[r] == (if r.name in completed then 0 else multiset(repos)[r])
    decreases |repos|
  {
    if repos != [] {
      var init := repos[..|repos| - 1];
      var last := repos[|repos| - 1];
      RemainingSpec(init, completed);
      assert repos == init + [last];
    }
  }

  /** The filter keeps source order: filtering a concatenation filters each part in place. */
  lemma {:induction false} RemainingConcat(a: seq<RepoRecord>, b: seq<RepoRecord>, completed: set<string>)
    ensures Remaining(a + b, completed) == Remaining(a, completed) + Remaining(b, completed)
    decreases |b|
  {
    if b == [] {
      assert a + b == a;
    } else {
      var init := b[..|b| - 1];
      var last := b[|b| - 1];
      var keep := if last.name in completed then [] else [last];
      RemainingConcat(a, init, completed);
      assert (a + b)[..|a + b| - 1] == a + init;
      assert (a + b)[|a + b| - 1] == last;
      assert Remaining(a + b, completed) == Remaining(a + init, completed) + keep;
      assert Remaining(b, completed) == Remaining(init, completed) + keep;
      assert Remaining(a, completed) + Remaining(init, completed) + keep ==
        Remaining(a, completed) + (Remaining(init, completed) + keep);
    }
  }

  /** A single repository is kept exactly when the ledger does not name it. */
  lemma RemainingSingle(r: RepoRecord, completed: set<string>)
    ensures Remaining([r], completed) == if r.name in completed then [] else [r]
  {
    assert [r][..0] == [];
  }

  predicate CreatedNoLater(a: RepoRecord, b: RepoRecord) {
    StrLe(a.createdAt, b.createdAt)
  }

  /** Oldest first: `createdAt` never decreases along the list. */
  predicate SortedByCreation(s: seq<RepoRecord>) {
    forall i, j :: 0 <= i < j < |s| ==> CreatedNoLater(s[i], s[j])
  }

  /** The repositories of s created at exactly `at`, in their order in s. */
  function CreatedAt(s: seq<RepoRecord>, at: string): seq<RepoRecord>
    decreases |s|
  {
    if s == [] then [] else (if s[0].createdAt == at then [s[0]] else []) + CreatedAt(s[1..], at)
  }

  lemma {:induction false} CreatedAtConcat(a: seq<RepoRecord>, b: seq<RepoRecord>, at: string)
    ensures CreatedAt(a + b, at) == CreatedAt(a, at) + CreatedAt(b, at)
    decreases |a|
  {
    if a != [] {
      CreatedAtConcat(a[1..], b, at);
      assert (a + b)[0] == a[0];
      assert (a + b)[1..] == a[1..] + b;
    } else {
      assert a + b == b;
    }
  }

  /**
   * Puts x in front of the first element created no earlier than it, so that x
   * stays ahead of the elements it came before in the input.
   */
  function Insert(x: RepoRecord, s: seq<RepoRecord>): (r: seq<RepoRecord>)
    ensures multiset(r) == multiset(s) + multiset{x}
    ensures |r| == |s| + 1
    decreases |s|
  {
    if s == [] || CreatedNoLater(x, s[0]) then [x] + s
    else
      assert s == [s[0]] + s[1..];
      [s[0]] + Insert(x, s[1..])
  }

  lemma {:induction false} InsertSorted(x: RepoRecord, s: seq<RepoRecord>)
    requires SortedByCreation(s)
    ensures SortedByCreation(Insert(x, s))
    decreases |s|
  {
    if s != [] && !CreatedNoLater(x, s[0]) {
      InsertSorted(x, s[1..]);
      InsertBehind(x, s);
    } else {
      var r := Insert(x, s);
      assert r == [x] + s;
      forall i, j | 0 <= i < j < |r| ensures CreatedNoLater(r[i], r[j]) {
        if i == 0 && j > 1 {
          StrLeTransitive(x.createdAt, s[0].createdAt, s[j - 1].createdAt);
        }
      }
    }
  }

  /** The step of InsertSorted where x goes behind the head of s. */
  lemma InsertBehind(x: RepoRecord, s: seq<RepoRecord>)
    requires SortedByCreation(s) && s != [] && !CreatedNoLater(x, s[0])
    requires SortedByCreation(Insert(x, s[1..]))
    ensures SortedByCreation(Insert(x, s))
  {
    StrLeTotal(x.createdAt, s[0].createdAt);
    var tail := Insert(x, s[1..]);
    forall k | 0 <= k < |s[1..]| ensures StrLe(s[0].createdAt, s[1..][k].createdAt) {
      assert s[1..][k] == s[k + 1];
    }
    InsertAbove(x, s[1..], s[0].createdAt);
    var r := Insert(x, s);
    assert r == [s[0]] + tail;
    forall i, j | 0 <= i < j < |r| ensures CreatedNoLater(r[i], r[j]) {
      if i > 0 { assert r[i] == tail[i - 1]; }
      assert r[j] == tail[j - 1];
    }
  }

  /** Inserting x into s keeps every creation time at or above a bound both x and s respect. */
  lemma {:induction false} InsertAbove(x: RepoRecord, s: seq<RepoRecord>, lo: string)
    requires StrLe(lo, x.createdAt)
    requires forall k :: 0 <= k < |s| ==> StrLe(lo, s[k].createdAt)
    ensures forall k :: 0 <= k < |Insert(x, s)| ==> StrLe(lo, Insert(x, s)[k].createdAt)
    decreases |s|
  {
    var r := Insert(x, s);
    if s != [] && !CreatedNoLater(x, s[0]) {
      var tail := Insert(x, s[1..]);
      forall k | 0 <= k < |s[1..]| ensures StrLe(lo, s[1..][k].createdAt) {
        assert s[1..][k] == s[k + 1];
      }
      InsertAbove(x, s[1..], lo);
      assert r == [s[0]] + tail;
      forall k | 0 <= k < |r| ensures StrLe(lo, r[k].createdAt) {
        if k > 0 { assert r[k] == tail[k - 1]; }
      }
    } else {
      assert r == [x] + s;
      forall k | 0 <= k < |r| ensures StrLe(lo, r[k].createdAt) {
        if k > 0 { assert r[k] == s[k - 1]; }
      }
    }
  }

  /** Inserting x adds x to its own creation-time group, ahead of that group, and leaves the others alone. */
  lemma {:induction false} InsertStable(x: RepoRecord, s: seq<RepoRecord>, at: string)
    requires SortedByCreation(s)
    ensures CreatedAt(Insert(x, s), at) == (if x.createdAt == at then [x] else []) + CreatedAt(s, at)
    decreases |s|
  {
    if s == [] || CreatedNoLater(x, s[0]) {
      CreatedAtConcat([x], s, at);
    } else {
      if s[0].createdAt == x.createdAt { StrLeReflexive(x.createdAt); }
      InsertStable(x, s[1..], at);
      CreatedAtConcat([s[0]], Insert(x, s[1..]), at);
      CreatedAtConcat([s[0]], s[1..], at);
      assert s == [s[0]] + s[1..];
    }
  }

  /** Python's stable list sort keyed on `createdAt`, as a value. */
  function SortByCreation(s: seq<RepoRecord>): seq<RepoRecord>
    decreases |s|
  {
    if s == [] then [] else Insert(s[0], SortByCreation(s[1..]))
  }

  /**
   * The sort is a permutation, puts older repositories first, and keeps the input
   * order among repositories created at the same time (it is stable).
   */
  lemma {:induction false} SortByCreationSpec(s: seq<RepoRecord>)
    ensures multiset(SortByCreation(s)) == multiset(s)
    ensures SortedByCreation(SortByCreation(s))
    ensures forall at :: CreatedAt(SortByCreation(s), at) == CreatedAt(s, at)
    decreases |s|
  {
    if s != [] {
      SortByCreationSpec(s[1..]);
      InsertSorted(s[0], SortByCreation(s[1..]));
      assert s == [s[0]] + s[1..];
      forall at ensures CreatedAt(SortByCreation(s), at) == CreatedAt(s, at) {
        InsertStable(s[0], SortByCreation(s[1..]), at);
      }
    }
  }

  /**
   * Lines 369 and 392: the source repositories the ledger does not name, each as
   * often as in the source, oldest first, same-age ones in source order.
   */
  function WorkList(source: seq<RepoRecord>, completed: set<string>): (work: seq<RepoRecord>)
    ensures forall r :: r in work ==> r.name !in completed
    ensures forall r :: multiset(work)[r] == if r.name in completed then 0 else multiset(source)[r]
    ensures SortedByCreation(work)
    ensures forall at :: CreatedAt(work, at) == CreatedAt(Remaining(source, completed), at)
  {
    var rest := Remaining(source, completed);
    RemainingSpec(source, completed);
    SortByCreationSpec(rest);
    var work := SortByCreation(rest);
    assert forall r :: r in work ==> r in multiset(rest);
    work
  }

  /** Every repository of the work list is a source repository whose name the ledger does not hold. */
  lemma WorkListMembers(source: seq<RepoRecord>, completed: set<string>)
    ensures forall r :: r in WorkList(source, completed) ==> r in source && r.name !in completed
  {
    var work := WorkList(source, completed);
    forall r | r in work ensures r in source {
      assert multiset(work)[r] > 0;
    }
  }
}

=== FILE: text.dfy ===
/**
 * The string operations the migration script relies on: Python's `str.strip()`,
 * an ASCII model of `str.lower()`, and Python's ordering of `str` values (which
 * `sorted(...)` and `list.sort(key=...)` use).
 */
module Text {

  /** The characters Python's `str.isspace()` accepts; `str.strip()` removes exactly these. */
  predicate IsSpace(c: char) {
    ('\t' <= c <= '\r') || ('\U{1C}' <= c <= '\U{1F}') || c == ' ' || c == '\U{85}' || c == '\U{A0}'
    || c == '\U{1680}' || ('\U{2000}' <= c <= '\U{200A}') || c == '\U{2028}' || c == '\U{2029}'
    || c == '\U{202F}' || c == '\U{205F}' || c == '\U{3000}'
  }

  predicate AllSpace(s: string) {
    forall k :: 0 <= k < |s| ==> IsSpace(s[k])
  }

  /** A repository name as the hosting service hands it out: non-empty, no white space, no line break. */
  predicate IsPlainName(s: string) {
    s != [] && forall k :: 0 <= k < |s| ==> !IsSpace(s[k])
  }

  function TrimLeft(s: string): string {
    if s != [] && IsSpace(s[0]) then TrimLeft(s[1..]) else s
  }

  function TrimRight(s: string): string {
    if s != [] && IsSpace(s[|s| - 1]) then TrimRight(s[..|s| - 1]) else s
  }

  /** TrimLeft removes the leading run of white space and nothing else. */
  lemma {:induction false} TrimLeftSpec(s: string)
    ensures |TrimLeft(s)| <= |s| && TrimLeft(s) == s[|s| - |TrimLeft(s)|..]
    ensures AllSpace(s[..|s| - |TrimLeft(s)|])
    ensures TrimLeft(s) == [] || !IsSpace(TrimLeft(s)[0])
    decreases |s|
  {
    if s != [] && IsSpace(s[0]) {
      var tail := s[1..];
      TrimLeftSpec(tail);
      assert s[..|s| - |TrimLeft(s)|] == [s[0]] + tail[..|tail| - |TrimLeft(tail)|];
    }
  }

  /** TrimRight removes the trailing run of white space and nothing else. */
  lemma {:induction false} TrimRightSpec(s: string)
    ensures |TrimRight(s)| <= |s| && TrimRight(s) == s[..|TrimRight(s)|]
    ensures AllSpace(s[|TrimRight(s)|..])
    ensures TrimRight(s) == [] || !IsSpace(TrimRight(s)[|TrimRight(s)| - 1])
    decreases |s|
  {
    if s != [] && IsSpace(s[|s| - 1]) {
      var init := s[..|s| - 1];
      TrimRightSpec(init);
      assert s[|TrimRight(s)|..] == init[|TrimRight(init)|..] + [s[|s| - 1]];
    }
  }

  /** r is what remains of s once a run of white space is cut from each end, leaving none at either end. */
  predicate IsStripOf(r: string, s: string) {
    && (r == [] || (!IsSpace(r[0]) && !IsSpace(r[|r| - 1])))
    && exists i :: 0 <= i <= |s| - |r| && StripsAt(r, s, i)
  }

  predicate StripsAt(r: string, s: string, i: nat)
    requires i + |r| <= |s|
  {
    r == s[i..i + |r|] && AllSpace(s[..i]) && AllSpace(s[i + |r|..])
  }

  /** Python's `str.strip()` with no argument. */
  function Strip(s: string): string {
    TrimRight(TrimLeft(s))
  }

  /** Strip cuts a run of white space from each end of s and leaves none at either end. */
  lemma StripSpec(s: string)
    ensures IsStripOf(Strip(s), s)
  {
    var left := TrimLeft(s);
    var r := TrimRight(left);
    TrimLeftSpec(s);
    TrimRightSpec(left);
    var i := |s| - |left|;
    assert r == [] || r[0] == left[0];
    assert s[i..i + |r|] == r;
    assert s[i + |r|..] == left[|r|..];
    assert AllSpace(s[..i]);
    assert StripsAt(r, s, i);
  }

  lemma StripPlainName(s: string)
    requires IsPlainName(s)
    ensures Strip(s) == s
  {
    var r := Strip(s);
    StripSpec(s);
    var i :| 0 <= i <= |s| - |r| && StripsAt(r, s, i);
    assert !IsSpace(s[i]) by { assert |r| > 0 || i < |s|; }
    assert i == 0;
  }

  function LowerChar(c: char): char {
    if 'A' <= c <= 'Z' then (c as int + 32) as char else c
  }

  /**
   * `str.lower()` restricted to ASCII letters: each capital becomes its lower-case
   * letter (32 code points on) and every other character is kept.
   */
  function Lower(s: string): (r: string)
    ensures |r| == |s|
    ensures forall i :: 0 <= i < |s| ==> !('A' <= r[i] <= 'Z')
    ensures forall i :: 0 <= i < |s| && !('A' <= s[i] <= 'Z') ==> r[i] == s[i]
    ensures forall i :: 0 <= i < |s| && 'A' <= s[i] <= 'Z' ==> r[i] == (s[i] as int + 32) as char
  {
    seq(|s|, i requires 0 <= i < |s| => LowerChar(s[i]))
  }

  /** Python's `a <= b` on `str`: lexicographic by code point, a proper prefix first. */
  predicate StrLe(a: string, b: string)
    decreases |a|
  {
    a == [] || (b != [] && (a[0] < b[0] || (a[0] == b[0] && StrLe(a[1..], b[1..]))))
  }

  lemma {:induction false} StrLeReflexive(a: string)
    ensures StrLe(a, a)
    decreases |a|
  {
    if a != [] { StrLeReflexive(a[1..]); }
  }

  lemma {:induction false} StrLeAntisymmetric(a: string, b: string)
    requires StrLe(a, b) && StrLe(b, a)
    ensures a == b
    decreases |a|
  {
    if a != [] && b != [] {
      StrLeAntisymmetric(a[1..], b[1..]);
      assert a == [a[0]] + a[1..] && b == [b[0]] + b[1..];
    }
  }

  lemma {:induction false} StrLeTransitive(a: string, b: string, c: string)
    requires StrLe(a, b) && StrLe(b, c)
    ensures StrLe(a, c)
    decreases |a|
  {
    if a != [] && b != [] && c != [] && a[0] == b[0] && b[0] == c[0] {
      StrLeTransitive(a[1..], b[1..], c[1..]);
    }
  }

  lemma {:induction false} StrLeTotal(a: string, b: string)
    ensures StrLe(a, b) || StrLe(b, a)
    decreases |a|
  {
    if a != [] && b != [] && a[0] == b[0] {
      StrLeTotal(a[1..], b[1..]);
    }
  }

  predicate IsLeast(m: string, s: set<string>) {
    m in s && forall x :: x in s ==> StrLe(m, x)
  }

  lemma {:induction false} LeastExists(s: set<string>)
    requires s != {}
    ensures exists m :: IsLeast(m, s)
    decreases |s|
  {
    var y :| y in s;
    if s != {y} {
      LeastExists(s - {y});
      var m :| IsLeast(m, s - {y});
      StrLeTotal(m, y);
      if StrLe(m, y) {
        assert IsLeast(m, s);
      } else {
        forall x | x in s ensures StrLe(y, x) {
          if x != y { StrLeTransitive(y, m, x); } else { StrLeReflexive(y); }
        }
        assert IsLeast(y, s);
      }
    } else {
      StrLeReflexive(y);
      assert IsLeast(y, s);
    }
  }

  lemma LeastUnique(s: set<string>)
    ensures forall a, b :: IsLeast(a, s) && IsLeast(b, s) ==> a == b
  {
    forall a, b | IsLeast(a, s) && IsLeast(b, s) ensures a == b {
      StrLeAntisymmetric(a, b);
    }
  }

  /** Python's `sorted(s)` for a set of strings: every element once, in ascending order. */
  function SortedNames(s: set<string>): (r: seq<string>)
    ensures |r| == |s|
    ensures forall x :: x in r <==> x in s
    ensures forall i, j :: 0 <= i < j < |r| ==> StrLe(r[i], r[j]) && r[i] != r[j]
    decreases |s|
  {
    if s == {} then []
    else
      LeastExists(s);
      LeastUnique(s);
      var m :| IsLeast(m, s);
      var rest := SortedNames(s - {m});
      var r := [m] + rest;
      forall i, j | 0 <= i < j < |r| ensures StrLe(r[i], r[j]) && r[i] != r[j] {
        if i == 0 {
          assert r[j] == rest[j - 1] && rest[j - 1] in s - {m};
        } else {
          assert r[i] == rest[i - 1] && r[j] == rest[j - 1];
        }
      }
      r
  }

  /** A single name sorts to itself. */
  lemma SortedSingleton(m: string)
    ensures SortedNames({m}) == [m]
  {
    var r := SortedNames({m});
    assert r[0] in {m};
  }
}
